=== FILE: README.md ===
# check_jellyfin in Dafny

A model of the pure core of `check_jellyfin`, a Nagios-style monitoring plugin
for a Jellyfin (Emby-compatible) media server. The plugin queries the server's
HTTP API and reports one status line. The line has a colour-tagged status
label, a message, and a list of performance-data entries
`"name"=value;min;max;warning;critical`. It exits with the Nagios status code
(0 OK, 1 WARNING, 2 CRITICAL, 3 UNKNOWN).

The model covers everything that happens between the decoded server answers
and the printed line:

- `perfdata.dfy`: `add_perfdata`. It renders one entry and appends it to the
  perf-data list. The list is an explicit accumulator instead of a global.
- `status.dfy`: `exit`. It picks the label and colour and builds the line. It
  returns the line and the exit code instead of terminating.
- `api.dfy`: the request URL built in `api_call`.
- `sessions.dfy`: `get_item_counts`, `get_sessions`, and the session counters
  of `get_stats`.
- `breakdown.dfy`: `get_duration_by_user/device/platform` and
  `add_stats_perfdata`.
- `hourly.dfy`: the weekday-hour selector of `get_hourly_play_time`.
- `stats.dfy`: the fixed order of `get_stats`, the abort on a failed request,
  and the host-name and API-key checks of the entry point.
- `text.dfy`, `json.dfy`, `basics.dfy`: the Python string and formatting
  behaviour the above relies on. `replace` and `split("@")[0]` are described
  character by character. `join` and `%d`, and `%s` of an integer, are each
  paired with a parser that undoes them.

Every server answer is an input. A request either succeeds with its decoded
body (`Ok`) or fails with the text of its transport error (`Err`). The clock
reading (ISO weekday and hour) is an input too.

Some behaviours of the code that are easy to miss:

- A failed request still prints the entries already added. `exit` joins the
  global `perfdata` list as it stands (line 62), so the CRITICAL line carries
  every metric added before the first failed request, and none of the
  breakdown round that request belongs to (`Stats.GetStats`,
  `Stats.AddedBeforeFailure`, `Stats.SessionFailureKeepsCounts`).
- The TLS option is an integer compared with exactly 1, not a boolean. A value
  of 2 selects `http` (`Api.RequestUrl`).
- The `GRAY` constant has the same value as `ORANGE` (`#f57700`), so an
  unknown status is drawn like WARNING (`Status.UnknownSharesWarningColor`).
- A device or platform item without a label is still reported, with `None`
  in its metric name (`Breakdown.MissingDeviceLabel`).

## Model

| member | source | states |
|---|---|---|
| PerfData.EntryName | libexec/check_jellyfin.py:36 | the entry's name has no space: every space becomes `_`, every other character and the length stay unchanged |
| PerfData.Add | libexec/check_jellyfin.py:34-36 | `add_perfdata` appends exactly one entry, the rendered metric, at the end and leaves every earlier entry unchanged |
| PerfData.AddAllAppends | libexec/check_jellyfin.py:34-36 | a run of `add_perfdata` calls, one per metric, leaves the list as it was followed by the rendered metrics in call order |
| PerfData.AddAllInOrder | libexec/check_jellyfin.py:34-36 | a run of `add_perfdata` calls keeps the earlier list as a prefix and puts the i-th call's entry at offset i, so call order is output order |
| PerfData.EntryRoundTrip | libexec/check_jellyfin.py:36 | `Render`, the entry format of `add_perfdata`: a rendered entry reads back as the quoted space-free name followed by value, min, max, warning, critical in that order, whenever the name has no quote and no field has a semicolon |
| Json.RenderValue | libexec/check_jellyfin.py:36 | `%s` of an integer value is decimal text that reads back to the integer and contains neither `;` nor a space |
| Text.BeforeFirst | libexec/check_jellyfin.py:191 | `split("@")[0]` is the longest prefix without `@`: a prefix of the input that holds no `@` and is followed by `@` unless it is the whole input |
| Text.IntToDecimalRoundTrip | libexec/check_jellyfin.py:70-72 | the `%d` rendering of any integer, negative ones included, reads back to that integer |
| Status.SelectLook | libexec/check_jellyfin.py:38-60 | with an empty override, statuses 0, 1, 2 get OK, WARNING, CRITICAL and their colours from a fixed table, and any other status gets UNKNOWN in GRAY; a non-empty override label is kept verbatim while the colour still follows the status |
| Status.UnknownSharesWarningColor | libexec/check_jellyfin.py:20-23 | every status other than 0, 1, 2 looks exactly like UNKNOWN (3), and is drawn in the same colour as WARNING, because GRAY and ORANGE are equal, though its label differs |
| Status.StatusLine | libexec/check_jellyfin.py:62 | the printed line reads back as its colour, its label, and the message followed by ` \| ` and the space-joined entries, whenever the colour has no `;` and the label has no `]` |
| Status.Exit | libexec/check_jellyfin.py:38-63 | the exit code is the status; whenever the override label holds no `]`, the line reads back as the selected colour and label followed by the message, ` \| ` and the joined perf data |
| Api.RequestUrl | libexec/check_jellyfin.py:69-74 | the URL starts with `https://` exactly when the flag equals 1, so any other value, including 2, gives `http`; it always ends with `/emby` followed by the unchanged path |
| Api.RequestUrlRoundTrip | libexec/check_jellyfin.py:69-74 | the URL reads back to whether the flag was 1, the host name, the port and the path, whenever the host name has no colon |
| Sessions.GetItemCounts | libexec/check_jellyfin.py:97-107 | each library count is the server's field, or 0 when the field is absent |
| Sessions.FormatSession | libexec/check_jellyfin.py:113-119 | a session is active exactly when a now-playing item is present; the item name is that item's `OriginalTitle`, and None when nothing plays; play method, client and device are copied |
| Sessions.FormatSessions | libexec/check_jellyfin.py:113-119 | `get_sessions` keeps the server's sessions one for one, in order, each formatted as above |
| Sessions.FilterPartition | libexec/check_jellyfin.py:227-228 | the sessions kept by a condition and those kept by its negation together number all the sessions |
| Sessions.FilterExclusive | libexec/check_jellyfin.py:229-231 | three conditions that never hold together keep at most as many sessions as there are |
| Sessions.CountSessions | libexec/check_jellyfin.py:226-233 | active + inactive = number of sessions; transcode + direct play + direct stream is at most the number of sessions; each counter is the length of its filtered list |
| Sessions.SessionTotalIsLength | libexec/check_jellyfin.py:226-238 | the six session metrics, in order: `session_total` is the number of sessions the server listed; `session_active`, `session_inactive` and the transcode, direct-play and direct-stream counters are the sizes of the session lists filtered by activity and by play method; every play-method counter is at most the total |
| Breakdown.GetDurations | libexec/check_jellyfin.py:127-137 | a null or empty report yields None; otherwise it yields one (label, duration) pair per item, in order |
| Breakdown.MetricKey | libexec/check_jellyfin.py:189-202 | a user label is cut before its first `@` (a prefix holding no `@`); device and platform labels are printed with `%s`, so a missing or null one reads `None` |
| Breakdown.DimensionMetricsOfReport | libexec/check_jellyfin.py:189-202 | one dimension adds no metric for a falsy report and otherwise exactly one metric per item, in order, named `play_by_{dim}_{window}_{label}` with the item's time as value |
| Breakdown.RoundMetricsLayout | libexec/check_jellyfin.py:187-202 | `RoundMetrics`, the metrics of one `add_stats_perfdata` call: a round adds one metric per report item: the user block first, then device, then platform, each in report order, with the names and values of each item |
| Breakdown.UserLabelExample | libexec/check_jellyfin.py:191-192 | a user `alice@tv` with 120 for today gives exactly `play_by_user_today_alice` = 120; a null and an empty report add nothing |
| Breakdown.MissingDeviceLabel | libexec/check_jellyfin.py:194-197 | a device item without a label gives exactly one metric, `play_by_device_{window}_None`, with the item's time |
| Hourly.Pad2 | libexec/check_jellyfin.py:212 | `%02d` gives at least two digits, and below 100 exactly the tens digit and the units digit; it reads back to the hour |
| Hourly.Selector | libexec/check_jellyfin.py:212 | below hour 100 the selector is the weekday's decimal digits, a dash, then the hour's tens and units digits; it reads back to the weekday and the hour, and it is four characters long for every weekday 1..7 and hour 0..23 |
| Hourly.SelectorExamples | libexec/check_jellyfin.py:212 | (3, 14) gives `3-14` and (3, 5) gives `3-05` |
| Hourly.HourlyPlayTime | libexec/check_jellyfin.py:212-214 | the lookup has a value exactly when the report has a non-null entry under the selector for the given weekday and hour, and it is that entry |
| Stats.GetStats | libexec/check_jellyfin.py:217-260 | `get_stats` exits OK exactly when every request succeeds, and CRITICAL otherwise; on success it prints "Jellyfin stats collected" and exactly the entries of the flat metric list, in order; on failure it is the CRITICAL exit of the first failed request, whose entries are exactly those of the metrics added before that request: none if system info or the item counts failed, the item counts if the sessions failed, then the session counts and response time, the user count, the hourly metric and each complete earlier breakdown round |
| Stats.CollectOutcome | libexec/check_jellyfin.py:217-257 | all requests of `get_stats` get answered exactly when every one succeeds, and then the list built is the flat metric list; otherwise the run stops at the first failed request, in request order, with that request's error and the rendering of the metrics added before it |
| Stats.CallFailed | libexec/check_jellyfin.py:88-90 | a failed request exits CRITICAL with a red line labelled CRITICAL whose message is "Could not contact jellyfin: " and the error, followed by ` \| ` and the entries added so far |
| Stats.FixedMetricOrder | libexec/check_jellyfin.py:220-244 | a successful run starts with exactly eleven fixed metrics, in order: movie_count, shows_count and episodes_count carrying the server's `MovieCount`, `SeriesCount` and `EpisodeCount` (0 when absent); `session_total` (the number of sessions) and the five session counters (sizes of the filtered session lists); response_time carrying the `/System/Info` response time; user_count carrying the number of users |
| Stats.HourlyMetricPosition | libexec/check_jellyfin.py:246-257 | the twelfth entry is `current_hour_playtime` exactly when the hourly report has a value for the current weekday and hour, and then it carries that value; right after it (or right after the eleven fixed metrics when there is no value) come the today, week and year rounds, in that order |
| Stats.CollectionsNotReported | libexec/check_jellyfin.py:221-224 | changing the server's `BoxSetCount` changes nothing about the run: same line, same exit code |
| Stats.SessionFailureKeepsCounts | libexec/check_jellyfin.py:88-90 | a failed session request ends the run CRITICAL with "Could not contact jellyfin: " and the error, and the line still carries the three library counts already added |
| Stats.RefusedStart | libexec/check_jellyfin.py:271-279 | a refused start exits CRITICAL, drawn red with the label ERROR, the message, and an empty perf-data section |
| Stats.Run | libexec/check_jellyfin.py:264-281 | no host name gives CRITICAL/ERROR with the host-name message; a host name but no API key gives CRITICAL/ERROR with the token message; otherwise the code is OK exactly when every request succeeds, and then the line is green, labelled OK, and carries the full metric list |

## Left out

- HTTP: the request itself, its `Accept` and `X-Emby-Token` headers, and the TLS context that accepts any certificate. A request of the run is modelled only by its outcome, a decoded body or an error text. URL construction is modelled on its own in `Api.RequestUrl` and is not attached to any request of the run.
- Request paths: the endpoint path of each request is not modelled. This includes the `days=%d` breakdown paths. Each answer arrives as its own input field.
- Response time: the wall-clock measurement with `time.time()` is left out. The `/System/Info` response time is an opaque input value.
- JSON decoding: inputs are already-decoded records of the expected shapes. The program crashes with a traceback, and exit code 1, on a body of the wrong shape, for example:
  - a body that is not JSON;
  - an item-counts body that is not an object (`sections.get` at line 101);
  - a session without `PlayState` (line 114), or with a null `NowPlayingItem` (line 118);
  - a null users body (`len(None)` at line 244; the model's user count is a `nat`);
  - an hourly report that is not an object (`stats.get` at line 214).
  None of these crashes is modelled.
- Breakdown reports: a truthy report that is not a list passes the check at line 127. A number crashes at the loop at line 131. An object or a string is iterated, and the crash comes at `item.get` at line 133, because the items are strings. This is not modelled; a report is either falsy (None or an empty list) or a list of items.
- Breakdown.MetricKey: a user item whose label is missing, null or not a string makes `split` raise at line 191. The model prints such a label with `%s` and cuts it at `@` instead of modelling the crash.
- Non-integer values: floats and other non-integer JSON values, strings included, are opaque text. Python's float formatting is not modelled.
- Clock: the current date and time are not read. The ISO weekday and the hour are parameters.
- Command line: `optparse` parsing, the usage error for positional arguments, and the port and TLS options are not modelled beyond their use in the URL. An absent host name or key and an empty one are both the empty string.
- Non-ASCII labels: Python 2's `json` returns labels as `unicode`, which makes the entry names and the joined line `unicode` too. When standard output has no UTF-8 encoding, the `print` at line 62 encodes with ASCII, so a non-ASCII user, device or platform label raises `UnicodeEncodeError`: no line is printed and the exit code is 1. The model treats strings as sequences of characters and always prints the line.
- Process exit: `print` and `sys.exit` become a returned line and code. The code is the status itself. The 8-bit truncation of exit codes is not modelled, because the program's own exit calls only pass 0 or 2.
- `get_section` is never called. The first request of `get_play_stats` only fetches a report and discards it. Both are left out, so a transport failure of that discarded request is not modelled.

=== FILE: api.dfy ===
/** The request address built by `api_call`: `scheme://host:port/emby<path>`.
    The request itself (headers, TLS context, timing) is not part of the model. */
module Api {
  import opened Basics
  import opened Text

  /** `https` only when the flag is exactly 1; any other value means `http`. */
  function Scheme(https: int): string
  {
    if https == 1 then "https" else "http"
  }

  /** The URL requested for `path`. */
  function RequestUrl(hostname: string, port: int, https: int, path: string): (r: string)
    ensures https == 1 <==> |r| >= 8 && r[..8] == "https://"
    ensures |r| >= 5 + |path| && r[|r| - |path| - 5..] == "/emby" + path
  {
    var r := Scheme(https) + "://" + hostname + ":" + IntToDecimal(port) + "/emby" + path;
    assert https != 1 ==> r[4] == ':' && "https://"[4] == 's';
    r
  }

  /** The parts a request URL is made of. */
  datatype UrlParts = UrlParts(secure: bool, hostname: string, port: int, path: string)

  /** Reads `scheme://host:port/emby<path>` back into its parts. */
  function ParseUrl(u: string): Option<UrlParts>
  {
    match SplitFirst(u, ':')
    case None => None
    case Some(p1) =>
      if p1.0 != "https" && p1.0 != "http" then None
      else
        match DropPrefix(p1.1, "//")
        case None => None
        case Some(r2) =>
          match SplitFirst(r2, ':')
          case None => None
          case Some(p2) =>
            match ParseAddress(p2.1)
            case None => None
            case Some(a) => Some(UrlParts(p1.0 == "https", p2.0, a.0, a.1))
  }

  /** Reads `port/emby<path>` into the port and the path. */
  function ParseAddress(s: string): Option<(int, string)>
  {
    match SplitFirst(s, '/')
    case None => None
    case Some(p) =>
      match ParseInt(p.0)
      case None => None
      case Some(port) =>
        match DropPrefix(p.1, "emby")
        case None => None
        case Some(path) => Some((port, path))
  }

  lemma ParseAddressOf(port: int, path: string)
    ensures ParseAddress(IntToDecimal(port) + "/emby" + path) == Some((port, path))
  {
    var digits := IntToDecimal(port);
    assert '/' !in digits;
    assert digits + "/emby" + path == digits + ['/'] + ("emby" + path);
    SplitFirstOf(digits, '/', "emby" + path);
    IntToDecimalRoundTrip(port);
    DropPrefixOf("emby", path);
  }

  /** The URL determines the scheme flag's meaning, the host, the port and the
      path, whenever the host name holds no colon. */
  lemma RequestUrlRoundTrip(hostname: string, port: int, https: int, path: string)
    requires ':' !in hostname
    ensures ParseUrl(RequestUrl(hostname, port, https, path))
            == Some(UrlParts(https == 1, hostname, port, path))
  {
    var address := IntToDecimal(port) + "/emby" + path;
    var r2 := hostname + ":" + address;
    var r1 := "//" + r2;
    var scheme := Scheme(https);
    assert RequestUrl(hostname, port, https, path) == scheme + [':'] + r1;
    assert ':' !in scheme;
    SplitFirstOf(scheme, ':', r1);
    DropPrefixOf("//", r2);
    assert r2 == hostname + [':'] + address;
    SplitFirstOf(hostname, ':', address);
    ParseAddressOf(port, path);
  }
}

=== FILE: basics.dfy ===
/** Failure-carrying wrappers shared by the whole model. */
module Basics {

  /** A value that may be missing: Python's `None` or an absent key. */
  datatype Option<+T> = None | Some(value: T)

  /** The outcome of one request to the media server: the decoded body, or the
      text of the transport error (`urllib2.URLError`) that aborted it. */
  datatype Result<+T> = Ok(value: T) | Err(error: string)
}

=== FILE: breakdown.dfy ===
/** Playback-time breakdowns: `get_duration_by_user`, `_by_device` and
    `_by_platform` turn a breakdown report into (label, duration) pairs, and
    `add_stats_perfdata` adds one metric per pair, user round first, then
    device, then platform. */
module Breakdown {
  import opened Basics
  import opened Text
  import opened Json
  import opened PerfData

  /** The grouping a breakdown report is requested for. */
  datatype Dimension = ByUser | ByDevice | ByPlatform

  /** One element of a decoded breakdown report: its `label` and its `time`,
      each Null when the item lacks the key (`item.get`). */
  datatype BreakdownItem = BreakdownItem(name: Value, time: Value)

  /** A decoded report: None for a JSON null or another falsy value, else the items. */
  type Report = Option<seq<BreakdownItem>>

  /** `not stats`: a null report or an empty list. */
  predicate Falsy(report: Report)
  {
    report.None? || report.value == []
  }

  /** The number of items a report holds, 0 for a null one. */
  function Size(report: Report): nat
  {
    if report.None? then 0 else |report.value|
  }

  /** One (label, duration) pair of `get_duration_by_*`. */
  datatype Duration = Duration(key: Value, duration: Value)

  /** `get_duration_by_*`: None for a falsy report, otherwise one pair per item,
      in the report's order. */
  function GetDurations(report: Report): (r: Option<seq<Duration>>)
    ensures r.None? <==> Falsy(report)
    ensures r.Some? ==> |r.value| == |report.value| > 0
    ensures r.Some? ==> forall i :: 0 <= i < |r.value| ==>
              r.value[i].key == report.value[i].name && r.value[i].duration == report.value[i].time
  {
    if Falsy(report) then None
    else Some(seq(|report.value|, i requires 0 <= i < |report.value| =>
                  Duration(report.value[i].name, report.value[i].time)))
  }

  /** The fixed start of a metric name, one per dimension. */
  function NamePrefix(dim: Dimension): string
  {
    match dim
    case ByUser => "play_by_user_"
    case ByDevice => "play_by_device_"
    case ByPlatform => "play_by_platform_"
  }

  /** The label as it appears in the metric name: a user name is cut at its
      first `@` (`split("@")[0]`); a device or platform label is printed with
      `%s`, so a missing or null one reads `None`. */
  function MetricKey(dim: Dimension, key: Value): (r: string)
    ensures dim != ByUser ==> r == RenderValue(key)
    ensures dim != ByUser && key.Null? ==> r == "None"
    ensures dim == ByUser ==>
              var text := RenderValue(key);
              '@' !in r && |r| <= |text| && r == text[..|r|] && (|r| < |text| ==> text[|r|] == '@')
  {
    if dim == ByUser then BeforeFirst(RenderValue(key), '@') else RenderValue(key)
  }

  /** `play_by_{user|device|platform}_{window}_{label}`. */
  function MetricName(dim: Dimension, window: string, key: Value): string
  {
    NamePrefix(dim) + window + "_" + MetricKey(dim, key)
  }

  /** The metrics one `if by_X: for ...` block of `add_stats_perfdata` adds. */
  function DimensionMetrics(dim: Dimension, window: string, durations: Option<seq<Duration>>): seq<Metric>
  {
    match durations
    case None => []
    case Some(ds) =>
      seq(|ds|, i requires 0 <= i < |ds| => Plain(MetricName(dim, window, ds[i].key), ds[i].duration))
  }

  /** The metrics of one `add_stats_perfdata` round for a lookback window. */
  function RoundMetrics(window: string, byUser: Report, byDevice: Report, byPlatform: Report): seq<Metric>
  {
    DimensionMetrics(ByUser, window, GetDurations(byUser))
    + DimensionMetrics(ByDevice, window, GetDurations(byDevice))
    + DimensionMetrics(ByPlatform, window, GetDurations(byPlatform))
  }

  /** The metrics of one dimension: none for a falsy report, else one per item in order. */
  lemma DimensionMetricsOfReport(dim: Dimension, window: string, report: Report)
    ensures |DimensionMetrics(dim, window, GetDurations(report))| == Size(report)
    ensures forall i :: 0 <= i < Size(report) ==>
              DimensionMetrics(dim, window, GetDurations(report))[i]
              == Plain(MetricName(dim, window, report.value[i].name), report.value[i].time)
  {
  }

  /** A round adds exactly one metric per report item: the user items first,
      then the device items, then the platform items, each block in report
      order, and a falsy report adds nothing. */
  lemma RoundMetricsLayout(window: string, byUser: Report, byDevice: Report, byPlatform: Report)
    ensures |RoundMetrics(window, byUser, byDevice, byPlatform)| == Size(byUser) + Size(byDevice) + Size(byPlatform)
    ensures forall i :: 0 <= i < Size(byUser) ==>
              RoundMetrics(window, byUser, byDevice, byPlatform)[i]
              == Plain("play_by_user_" + window + "_" + BeforeFirst(RenderValue(byUser.value[i].name), '@'), byUser.value[i].time)
    ensures forall i :: 0 <= i < Size(byDevice) ==>
              RoundMetrics(window, byUser, byDevice, byPlatform)[Size(byUser) + i]
              == Plain("play_by_device_" + window + "_" + RenderValue(byDevice.value[i].name), byDevice.value[i].time)
    ensures forall i :: 0 <= i < Size(byPlatform) ==>
              RoundMetrics(window, byUser, byDevice, byPlatform)[Size(byUser) + Size(byDevice) + i]
              == Plain("play_by_platform_" + window + "_" + RenderValue(byPlatform.value[i].name), byPlatform.value[i].time)
  {
    var u := DimensionMetrics(ByUser, window, GetDurations(byUser));
    var d := DimensionMetrics(ByDevice, window, GetDurations(byDevice));
    var p := DimensionMetrics(ByPlatform, window, GetDurations(byPlatform));
    DimensionMetricsOfReport(ByUser, window, byUser);
    DimensionMetricsOfReport(ByDevice, window, byDevice);
    DimensionMetricsOfReport(ByPlatform, window, byPlatform);
    UserPart(window, byUser, byDevice, byPlatform);
    DevicePart(window, byUser, byDevice, byPlatform);
    PlatformPart(window, byUser, byDevice, byPlatform);
  }

  lemma UserPart(window: string, byUser: Report, byDevice: Report, byPlatform: Report)
    ensures forall i :: 0 <= i < Size(byUser) ==>
              RoundMetrics(window, byUser, byDevice, byPlatform)[i]
              == Plain("play_by_user_" + window + "_" + BeforeFirst(RenderValue(byUser.value[i].name), '@'), byUser.value[i].time)
  {
    var u := DimensionMetrics(ByUser, window, GetDurations(byUser));
    var d := DimensionMetrics(ByDevice, window, GetDurations(byDevice));
    var p := DimensionMetrics(ByPlatform, window, GetDurations(byPlatform));
    DimensionMetricsOfReport(ByUser, window, byUser);
    ConcatAt(u, d, p);
    forall i | 0 <= i < Size(byUser)
      ensures RoundMetrics(window, byUser, byDevice, byPlatform)[i]
              == Plain("play_by_user_" + window + "_" + BeforeFirst(RenderValue(byUser.value[i].name), '@'), byUser.value[i].time)
    {
      MetricNameIs(ByUser, window, byUser.value[i].name);
      assert RoundMetrics(window, byUser, byDevice, byPlatform)[i] == u[i];
    }
  }

  lemma DevicePart(window: string, byUser: Report, byDevice: Report, byPlatform: Report)
    ensures forall i :: 0 <= i < Size(byDevice) ==>
              RoundMetrics(window, byUser, byDevice, byPlatform)[Size(byUser) + i]
              == Plain("play_by_device_" + window + "_" + RenderValue(byDevice.value[i].name), byDevice.value[i].time)
  {
    var u := DimensionMetrics(ByUser, window, GetDurations(byUser));
    var d := DimensionMetrics(ByDevice, window, GetDurations(byDevice));
    var p := DimensionMetrics(ByPlatform, window, GetDurations(byPlatform));
    DimensionMetricsOfReport(ByUser, window, byUser);
    DimensionMetricsOfReport(ByDevice, window, byDevice);
    ConcatAt(u, d, p);
    forall i | 0 <= i < Size(byDevice)
      ensures RoundMetrics(window, byUser, byDevice, byPlatform)[Size(byUser) + i]
              == Plain("play_by_device_" + window + "_" + RenderValue(byDevice.value[i].name), byDevice.value[i].time)
    {
      MetricNameIs(ByDevice, window, byDevice.value[i].name);
      assert RoundMetrics(window, byUser, byDevice, byPlatform)[|u| + i] == d[i];
    }
  }

  lemma PlatformPart(window: string, byUser: Report, byDevice: Report, byPlatform: Report)
    ensures forall i :: 0 <= i < Size(byPlatform) ==>
              RoundMetrics(window, byUser, byDevice, byPlatform)[Size(byUser) + Size(byDevice) + i]
              == Plain("play_by_platform_" + window + "_" + RenderValue(byPlatform.value[i].name), byPlatform.value[i].time)
  {
    var u := DimensionMetrics(ByUser, window, GetDurations(byUser));
    var d := DimensionMetrics(ByDevice, window, GetDurations(byDevice));
    var p := DimensionMetrics(ByPlatform, window, GetDurations(byPlatform));
    DimensionMetricsOfReport(ByUser, window, byUser);
    DimensionMetricsOfReport(ByDevice, window, byDevice);
    DimensionMetricsOfReport(ByPlatform, window, byPlatform);
    ConcatAt(u, d, p);
    forall i | 0 <= i < Size(byPlatform)
      ensures RoundMetrics(window, byUser, byDevice, byPlatform)[Size(byUser) + Size(byDevice) + i]
              == Plain("play_by_platform_" + window + "_" + RenderValue(byPlatform.value[i].name), byPlatform.value[i].time)
    {
      MetricNameIs(ByPlatform, window, byPlatform.value[i].name);
      assert RoundMetrics(window, byUser, byDevice, byPlatform)[|u| + |d| + i] == p[i];
    }
  }

  /** Where each part of a three-part concatenation sits in it. */
  lemma ConcatAt<T>(u: seq<T>, d: seq<T>, p: seq<T>)
    ensures |u + d + p| == |u| + |d| + |p|
    ensures forall i :: 0 <= i < |u| ==> (u + d + p)[i] == u[i]
    ensures forall i :: 0 <= i < |d| ==> (u + d + p)[|u| + i] == d[i]
    ensures forall i :: 0 <= i < |p| ==> (u + d + p)[|u| + |d| + i] == p[i]
  {
  }

  /** A metric name spelled out per dimension. */
  lemma MetricNameIs(dim: Dimension, window: string, key: Value)
    ensures dim == ByUser ==> MetricName(dim, window, key) == "play_by_user_" + window + "_" + BeforeFirst(RenderValue(key), '@')
    ensures dim == ByDevice ==> MetricName(dim, window, key) == "play_by_device_" + window + "_" + RenderValue(key)
    ensures dim == ByPlatform ==> MetricName(dim, window, key) == "play_by_platform_" + window + "_" + RenderValue(key)
  {
  }

  /** Every metric name of a round starts with `play_by_`. */
  lemma MetricNamePlayBy(dim: Dimension, window: string, key: Value)
    ensures |MetricName(dim, window, key)| >= 8 && MetricName(dim, window, key)[..8] == "play_by_"
  {
    var pre := NamePrefix(dim);
    var rest := window + "_" + MetricKey(dim, key);
    NamePrefixPlayBy(dim);
    assert MetricName(dim, window, key) == pre + rest;
    PrefixOfConcat(pre, rest, 8);
  }

  lemma NamePrefixPlayBy(dim: Dimension)
    ensures |NamePrefix(dim)| >= 8 && NamePrefix(dim)[..8] == "play_by_"
  {
  }

  /** The first n characters of a concatenation whose first part is at least n long. */
  lemma PrefixOfConcat(a: string, b: string, n: nat)
    requires n <= |a|
    ensures (a + b)[..n] == a[..n]
  {
  }

  lemma AliceName()
    ensures MetricName(ByUser, "today", Other("alice@tv")) == "play_by_user_today_alice"
  {
    assert "alice@tv" == "alice" + ['@'] + "tv";
    SplitFirstOf("alice", '@', "tv");
    assert "play_by_user_" + "today" == "play_by_user_today";
    assert "play_by_user_today" + "_" == "play_by_user_today_";
    assert "play_by_user_today_" + "alice" == "play_by_user_today_alice";
  }

  lemma AliceDurations()
    ensures GetDurations(Some([BreakdownItem(Other("alice@tv"), Int(120))])) == Some([Duration(Other("alice@tv"), Int(120))])
  {
    var byUser: Report := Some([BreakdownItem(Other("alice@tv"), Int(120))]);
    assert !Falsy(byUser) by {
      assert |byUser.value| == 1;
    }
    var ds := GetDurations(byUser).value;
    assert |ds| == 1 && ds[0] == Duration(Other("alice@tv"), Int(120));
    assert ds == [Duration(Other("alice@tv"), Int(120))];
  }

  lemma AliceMetrics()
    ensures DimensionMetrics(ByUser, "today", Some([Duration(Other("alice@tv"), Int(120))]))
            == [Plain("play_by_user_today_alice", Int(120))]
  {
    AliceName();
  }

  /** A user label `alice@tv` with 120 seconds today gives `play_by_user_today_alice` = 120,
      and the null device report and the empty platform report give nothing. */
  lemma UserLabelExample()
    ensures RoundMetrics("today", Some([BreakdownItem(Other("alice@tv"), Int(120))]), None, Some([]))
            == [Plain("play_by_user_today_alice", Int(120))]
  {
    AliceDurations();
    AliceMetrics();
    assert Falsy(Some([]));
  }

  /** A device item without a label is still reported, under the name
      `play_by_device_<window>_None`. */
  lemma MissingDeviceLabel(window: string, time: Value)
    ensures RoundMetrics(window, None, Some([BreakdownItem(Null, time)]), None)
            == [Plain("play_by_device_" + window + "_None", time)]
  {
    var byDevice: Report := Some([BreakdownItem(Null, time)]);
    var all := RoundMetrics(window, None, byDevice, None);
    RoundMetricsLayout(window, None, byDevice, None);
    assert Size(byDevice) == 1 && |all| == 1;
    assert all[0] == Plain("play_by_device_" + window + "_" + RenderValue(Null), time);
    assert "play_by_device_" + window + "_" + "None" == "play_by_device_" + window + "_None";
  }
}

=== FILE: hourly.dfy ===
/** The current-hour lookup of `get_hourly_play_time`: the hourly report maps
    `"<ISO weekday>-<hour, two digits>"` to a play time. The weekday and the
    hour are parameters here instead of readings of the system clock. */
module Hourly {
  import opened Basics
  import opened Text
  import opened Json

  /** `"%02d" % h`: at least two digits, a leading zero below ten. */
  function Pad2(h: nat): (r: string)
    ensures |r| >= 2 && AllDigits(r)
    ensures h < 100 ==> r == [Digit(h / 10), Digit(h % 10)]
    ensures ParseNat(r) == Some(h)
  {
    ParseNatToDecimal(h);
    if h < 10 then
      var r := "0" + NatToDecimal(h);
      assert r[..1] == "0" && DigitsValue("0") == 0;
      r
    else
      assert h < 100 ==> NatToDecimal(h) == NatToDecimal(h / 10) + [Digit(h % 10)];
      NatToDecimal(h)
  }

  /** Reads `"<digits>-<digits>"` back into the weekday and the hour. */
  function ParseSelector(s: string): Option<(nat, nat)>
  {
    match SplitFirst(s, '-')
    case None => None
    case Some(p) =>
      match (ParseNat(p.0), ParseNat(p.1))
      case (Some(weekday), Some(hour)) => Some((weekday, hour))
      case _ => None
  }

  /** `"%d-%02d" % (weekday, hour)`: the weekday's digits, a dash, and the hour
      padded to two digits; it reads back to the same weekday and hour, and it
      is four characters long for every ISO weekday and hour of the day. */
  function Selector(weekday: nat, hour: nat): (r: string)
    ensures ParseSelector(r) == Some((weekday, hour))
    ensures hour < 100 ==> r == NatToDecimal(weekday) + ['-', Digit(hour / 10), Digit(hour % 10)]
    ensures 1 <= weekday <= 7 && hour <= 23 ==> |r| == 4
  {
    var day := NatToDecimal(weekday);
    ParseNatToDecimal(weekday);
    assert '-' !in day;
    SplitFirstOf(day, '-', Pad2(hour));
    day + "-" + Pad2(hour)
  }

  /** Wednesday at 14h gives `3-14`; at 5h the hour is zero-padded to `3-05`. */
  lemma SelectorExamples()
    ensures Selector(3, 14) == "3-14"
    ensures Selector(3, 5) == "3-05"
  {
    assert NatToDecimal(14) == NatToDecimal(1) + [Digit(4)];
  }

  /** `stats.get(selector)`: the report's value for the current weekday and
      hour, or None when the key is missing or its value is null. A play time
      of 0 is still a value. */
  function HourlyPlayTime(stats: map<string, Value>, weekday: nat, hour: nat): (r: Option<Value>)
    ensures r.Some? <==> Selector(weekday, hour) in stats && stats[Selector(weekday, hour)] != Null
    ensures r.Some? ==> r.value == stats[Selector(weekday, hour)]
  {
    var key := Selector(weekday, hour);
    if key in stats && stats[key] != Null then Some(stats[key]) else None
  }
}

=== FILE: json.dfy ===
/** Scalars of the server's already-decoded JSON responses, and how Python's
    `%s` formatting prints them into a performance-data entry. */
module Json {
  import opened Basics
  import opened Text

  /** A decoded JSON scalar: an integer, `null` (Python's `None`), or any other
      value (a float, a string), kept as the text `%s` prints for it. */
  datatype Value = Int(i: int) | Null | Other(text: string)

  /** `"%s" % v`. */
  function RenderValue(v: Value): (r: string)
    ensures v.Int? ==> ParseInt(r) == Some(v.i)
    ensures v.Int? ==> ';' !in r && ' ' !in r
  {
    match v
    case Int(i) => IntToDecimalRoundTrip(i); IntToDecimal(i)
    case Null => "None"
    case Other(t) => t
  }
}

=== FILE: perfdata.dfy ===
/** The performance-data list of the plugin: `add_perfdata` renders one metric
    as `"name"=value;min;max;warning;critical` and appends it to the list that
    `exit` finally joins with spaces. The list is threaded explicitly instead of
    living in a global. */
module PerfData {
  import opened Basics
  import opened Text
  import opened Json

  /** The arguments of one `add_perfdata` call. */
  datatype Metric = Metric(name: string, value: Value, min: string, max: string, warning: string, critical: string)

  /** A metric with the threshold fields left at their default, the empty string,
      as every call in the program does. */
  function Plain(name: string, value: Value): Metric
  {
    Metric(name, value, "", "", "", "")
  }

  /** The name as it appears in the entry: every space becomes an underscore. */
  function EntryName(name: string): (r: string)
    ensures |r| == |name| && ' ' !in r
    ensures forall i :: 0 <= i < |name| && name[i] != ' ' ==> r[i] == name[i]
    ensures forall i :: 0 <= i < |name| && name[i] == ' ' ==> r[i] == '_'
  {
    ReplaceChar(name, ' ', '_')
  }

  /** The five `;`-separated fields after the `=`, in the program's order. */
  function EntryFields(m: Metric): seq<string>
  {
    [RenderValue(m.value), m.min, m.max, m.warning, m.critical]
  }

  /** One rendered entry: `"%s"=%s;%s;%s;%s;%s`. */
  function Render(m: Metric): string
  {
    "\"" + EntryName(m.name) + "\"=" + RenderValue(m.value) + ";" + m.min + ";" + m.max + ";" + m.warning + ";" + m.critical
  }

  /** `add_perfdata`: the new entry goes at the end, earlier entries stay. */
  function Add(acc: seq<string>, m: Metric): (r: seq<string>)
    ensures |r| == |acc| + 1
    ensures r[..|acc|] == acc
    ensures r[|acc|] == Render(m)
  {
    acc + [Render(m)]
  }

  /** A run of `add_perfdata` calls, one per metric, in order. */
  function AddAll(acc: seq<string>, ms: seq<Metric>): seq<string>
    decreases |ms|
  {
    if ms == [] then acc else AddAll(Add(acc, ms[0]), ms[1..])
  }

  /** The entries of a list of metrics, position by position. */
  function RenderAll(ms: seq<Metric>): (r: seq<string>)
    ensures |r| == |ms|
  {
    seq(|ms|, i requires 0 <= i < |ms| => Render(ms[i]))
  }

  /** Rendering a non-empty list renders its head, then its tail. */
  lemma RenderAllCons(ms: seq<Metric>)
    requires ms != []
    ensures RenderAll(ms) == [Render(ms[0])] + RenderAll(ms[1..])
  {
  }

  /** A run of `add_perfdata` calls appends the rendered metrics to the list. */
  lemma {:induction false} AddAllAppends(acc: seq<string>, ms: seq<Metric>)
    ensures AddAll(acc, ms) == acc + RenderAll(ms)
    decreases |ms|
  {
    if ms != [] {
      var acc' := Add(acc, ms[0]);
      AddAllAppends(acc', ms[1..]);
      RenderAllCons(ms);
      assert acc' + RenderAll(ms[1..]) == acc + RenderAll(ms);
    }
  }

  /** Call order is output order: a run of `add_perfdata` calls leaves the
      earlier list untouched and puts the i-th call's entry after it at offset i. */
  lemma AddAllInOrder(acc: seq<string>, ms: seq<Metric>)
    ensures AddAll(acc, ms) == acc + RenderAll(ms)
    ensures forall i :: 0 <= i < |ms| ==> AddAll(acc, ms)[|acc| + i] == Render(ms[i])
  {
    AddAllAppends(acc, ms);
  }

  /** Rendering a concatenation renders each part in turn. */
  lemma RenderAllConcat(a: seq<Metric>, b: seq<Metric>)
    ensures RenderAll(a + b) == RenderAll(a) + RenderAll(b)
  {
  }

  /** Adding two lists one after the other adds their concatenation. */
  lemma RenderAllConcat2(acc: seq<string>, a: seq<Metric>, b: seq<Metric>)
    ensures acc + RenderAll(a) + RenderAll(b) == acc + RenderAll(a + b)
  {
    RenderAllConcat(a, b);
  }

  /** Two single additions add the two-element list. */
  lemma AddTwo(acc: seq<string>, m1: Metric, m2: Metric)
    ensures Add(Add(acc, m1), m2) == acc + RenderAll([m1, m2])
  {
  }

  /** Adding three lists one after the other adds their concatenation. */
  lemma RenderAllConcat3(acc: seq<string>, a: seq<Metric>, b: seq<Metric>, c: seq<Metric>)
    ensures acc + RenderAll(a) + RenderAll(b) + RenderAll(c) == acc + RenderAll(a + b + c)
  {
    RenderAllConcat(a, b);
    RenderAllConcat(a + b, c);
  }

  /** An entry taken apart again: the quoted name and the fields after `=`. */
  datatype Fields = Fields(name: string, fields: seq<string>)

  /** Reads back an entry of the form `"name"=f1;f2;f3;f4;f5`. */
  function ParseEntry(e: string): Option<Fields>
  {
    if |e| == 0 || e[0] != '"' then None
    else match SplitFirst(e[1..], '"')
      case None => None
      case Some(p) =>
        if |p.1| == 0 || p.1[0] != '=' then None
        else
          var fs := SplitOn(p.1[1..], ';');
          if |fs| == 5 then Some(Fields(p.0, fs)) else None
  }

  /** Joining five fields spelled out. */
  lemma JoinFive(a: string, b: string, c: string, d: string, e: string, sep: char)
    ensures Join([a, b, c, d, e], sep) == a + [sep] + b + [sep] + c + [sep] + d + [sep] + e
  {
    var fs := [a, b, c, d, e];
    assert fs[3..][1..] == fs[4..] == [e];
    assert Join(fs[3..], sep) == d + [sep] + e;
    assert fs[2..][1..] == fs[3..];
    assert Join(fs[2..], sep) == c + [sep] + d + [sep] + e;
    assert fs[1..][1..] == fs[2..];
    assert Join(fs[1..], sep) == b + [sep] + c + [sep] + d + [sep] + e;
  }

  /** The entry is the quoted name, `=`, and the fields joined by `;`. */
  lemma RenderIsJoin(m: Metric)
    ensures Render(m)[1..] == EntryName(m.name) + ['"'] + ("=" + Join(EntryFields(m), ';'))
  {
    JoinFive(RenderValue(m.value), m.min, m.max, m.warning, m.critical, ';');
  }

  /** The rendered entry carries the space-free name between the quotes and
      value, min, max, warning, critical in that order, whenever the name holds
      no quote and no field holds a semicolon. */
  lemma EntryRoundTrip(m: Metric)
    requires '"' !in m.name
    requires forall i :: 0 <= i < 5 ==> ';' !in EntryFields(m)[i]
    ensures ParseEntry(Render(m)) == Some(Fields(EntryName(m.name), EntryFields(m)))
    ensures ' ' !in ParseEntry(Render(m)).value.name
  {
    var n := EntryName(m.name);
    var fs := EntryFields(m);
    assert '"' !in n;
    var joined := Join(fs, ';');
    RenderIsJoin(m);
    SplitFirstOf(n, '"', "=" + joined);
    assert ("=" + joined)[1..] == joined;
    SplitOnJoin(fs, ';');
  }
}

=== FILE: sessions.dfy ===
/** Library counts and playback sessions: the field mapping of
    `get_item_counts` and `get_sessions`, and the session counters of
    `get_stats`, each of which is the length of a filtered session list. */
module Sessions {
  import opened Basics
  import opened Json
  import opened PerfData

  /** `dict.get(key, default)` on a decoded JSON object. */
  function GetOr(fields: map<string, Value>, key: string, default: Value): Value
  {
    if key in fields then fields[key] else default
  }

  /** The four library counts; `collections` is read but never reported. */
  datatype ItemCounts = ItemCounts(movies: Value, shows: Value, episodes: Value, collections: Value)

  /** `get_item_counts`: each count is the server's field, or 0 when absent. */
  function GetItemCounts(fields: map<string, Value>): (c: ItemCounts)
    ensures c.movies == (if "MovieCount" in fields then fields["MovieCount"] else Int(0))
    ensures c.shows == (if "SeriesCount" in fields then fields["SeriesCount"] else Int(0))
    ensures c.episodes == (if "EpisodeCount" in fields then fields["EpisodeCount"] else Int(0))
    ensures c.collections == (if "BoxSetCount" in fields then fields["BoxSetCount"] else Int(0))
  {
    ItemCounts(
      GetOr(fields, "MovieCount", Int(0)),
      GetOr(fields, "SeriesCount", Int(0)),
      GetOr(fields, "EpisodeCount", Int(0)),
      GetOr(fields, "BoxSetCount", Int(0)))
  }

  /** The parts of a decoded session object the program reads. An absent
      `NowPlayingItem` is None. */
  datatype PlayState = PlayState(playMethod: Option<string>)
  datatype NowPlaying = NowPlaying(originalTitle: Option<string>)
  datatype RawSession = RawSession(playState: PlayState, client: Option<string>,
                                   deviceName: Option<string>, nowPlayingItem: Option<NowPlaying>)

  /** The program's own session record. */
  datatype Session = Session(playMethod: Option<string>, client: Option<string>, deviceName: Option<string>,
                             active: bool, itemName: Option<string>)

  /** One element of `get_sessions`: a session is active exactly when something
      is playing, and only an active session can name a playing item. */
  function FormatSession(raw: RawSession): (s: Session)
    ensures s.active <==> raw.nowPlayingItem.Some?
    ensures s.itemName.Some? ==> s.active
    ensures s.itemName == (if raw.nowPlayingItem.Some? then raw.nowPlayingItem.value.originalTitle else None)
    ensures s.playMethod == raw.playState.playMethod
    ensures s.client == raw.client && s.deviceName == raw.deviceName
  {
    Session(
      raw.playState.playMethod,
      raw.client,
      raw.deviceName,
      raw.nowPlayingItem.Some?,
      match raw.nowPlayingItem
      case None => None
      case Some(item) => item.originalTitle)
  }

  /** `get_sessions`: the sessions in the server's order. */
  function FormatSessions(raws: seq<RawSession>): (ss: seq<Session>)
    ensures |ss| == |raws|
    ensures forall i :: 0 <= i < |raws| ==> ss[i] == FormatSession(raws[i])
  {
    seq(|raws|, i requires 0 <= i < |raws| => FormatSession(raws[i]))
  }

  /** `[s for s in ss if p(s)]`. */
  function Filter(ss: seq<Session>, p: Session -> bool): (r: seq<Session>)
    ensures |r| <= |ss|
    ensures forall s :: s in r <==> s in ss && p(s)
  {
    if ss == [] then []
    else (if p(ss[0]) then [ss[0]] else []) + Filter(ss[1..], p)
  }

  /** A filter and the filter of the opposite condition split the list between them. */
  lemma {:induction false} FilterPartition(ss: seq<Session>, p: Session -> bool, q: Session -> bool)
    requires forall s :: q(s) == !p(s)
    ensures |Filter(ss, p)| + |Filter(ss, q)| == |ss|
  {
    if ss != [] {
      FilterPartition(ss[1..], p, q);
    }
  }

  /** Three filters whose conditions never hold together pick at most every element once. */
  lemma {:induction false} FilterExclusive(ss: seq<Session>, p: Session -> bool, q: Session -> bool, r: Session -> bool)
    requires forall s :: !(p(s) && q(s)) && !(p(s) && r(s)) && !(q(s) && r(s))
    ensures |Filter(ss, p)| + |Filter(ss, q)| + |Filter(ss, r)| <= |ss|
  {
    if ss != [] {
      FilterExclusive(ss[1..], p, q, r);
    }
  }

  predicate IsActive(s: Session) { s.active }
  predicate IsInactive(s: Session) { !s.active }
  predicate Transcoding(s: Session) { s.playMethod == Some("Transcode") }
  predicate DirectPlaying(s: Session) { s.playMethod == Some("DirectPlay") }
  predicate DirectStreaming(s: Session) { s.playMethod == Some("DirectStream") }

  /** The five session counters of `get_stats`. */
  datatype SessionCounts = SessionCounts(active: nat, inactive: nat, transcode: nat, directPlay: nat, directStream: nat)

  /** The counters: active and inactive sessions add up to all sessions, and a
      session counts for at most one play method. */
  function CountSessions(ss: seq<Session>): (c: SessionCounts)
    ensures c.active + c.inactive == |ss|
    ensures c.transcode + c.directPlay + c.directStream <= |ss|
    ensures c.active == |Filter(ss, IsActive)|
    ensures c.transcode == |Filter(ss, Transcoding)|
    ensures c.directPlay == |Filter(ss, DirectPlaying)|
    ensures c.directStream == |Filter(ss, DirectStreaming)|
  {
    FilterPartition(ss, IsActive, IsInactive);
    FilterExclusive(ss, Transcoding, DirectPlaying, DirectStreaming);
    SessionCounts(
      |Filter(ss, IsActive)|,
      |Filter(ss, IsInactive)|,
      |Filter(ss, Transcoding)|,
      |Filter(ss, DirectPlaying)|,
      |Filter(ss, DirectStreaming)|)
  }

  /** The six session metrics in the order `get_stats` adds them. */
  function SessionMetrics(c: SessionCounts): seq<Metric>
  {
    [ Plain("session_total", Int(c.active + c.inactive)),
      Plain("session_active", Int(c.active)),
      Plain("session_inactive", Int(c.inactive)),
      Plain("transcode_sessions", Int(c.transcode)),
      Plain("directplay_sessions", Int(c.directPlay)),
      Plain("directstream_sessions", Int(c.directStream)) ]
  }

  /** The reported `session_total` is the number of sessions the server listed,
      every play-method counter is at most that, and each of the six metrics
      carries the size of its own filtered session list. */
  lemma SessionTotalIsLength(raws: seq<RawSession>)
    ensures SessionMetrics(CountSessions(FormatSessions(raws)))[0] == Plain("session_total", Int(|raws|))
    ensures forall i :: 3 <= i < 6 ==>
              SessionMetrics(CountSessions(FormatSessions(raws)))[i].value.i <= |raws|
    ensures var ss := FormatSessions(raws);
            SessionMetrics(CountSessions(ss))
            == [ Plain("session_total", Int(|raws|)),
                 Plain("session_active", Int(|Filter(ss, IsActive)|)),
                 Plain("session_inactive", Int(|Filter(ss, IsInactive)|)),
                 Plain("transcode_sessions", Int(|Filter(ss, Transcoding)|)),
                 Plain("directplay_sessions", Int(|Filter(ss, DirectPlaying)|)),
                 Plain("directstream_sessions", Int(|Filter(ss, DirectStreaming)|)) ]
  {
  }
}

=== FILE: stats.dfy ===
/** The collector run end to end: `get_stats` adds its metrics in a fixed
    order and reports OK, any failed request aborts with CRITICAL, and the
    entry point refuses to start without a host name or an API key. The
    server's answers are inputs, one per request, already decoded. */
module Stats {
  import opened Basics
  import opened Text
  import opened Json
  import opened PerfData
  import opened Status
  import opened Sessions
  import opened Breakdown
  import opened Hourly

  /** The three breakdown requests of one `add_stats_perfdata` round. */
  datatype RoundResponses = RoundResponses(byUser: Result<Report>, byDevice: Result<Report>, byPlatform: Result<Report>)

  /** The answers to the requests of `get_stats`, in the order they are made.
      `systemInfo` carries the measured response time of `/System/Info`;
      `users` is the length of the decoded user list. */
  datatype Responses = Responses(
    systemInfo: Result<Value>,
    itemCounts: Result<map<string, Value>>,
    sessions: Result<seq<RawSession>>,
    users: Result<nat>,
    hourly: Result<map<string, Value>>,
    today: RoundResponses,
    week: RoundResponses,
    year: RoundResponses)

  /** The local ISO weekday (1..7) and hour (0..23) at the hourly lookup. */
  datatype Clock = Clock(weekday: nat, hour: nat)

  const Collected: string := "Jellyfin stats collected"
  const FailurePrefix: string := "Could not contact jellyfin: "

  /** The message and the CRITICAL exit of a request that failed; the list
      printed is whatever has been added so far. */
  function CallFailed(error: string, perfdata: seq<string>): (res: ExitResult)
    ensures res.code == CRITICAL
    ensures ParseStatusLine(res.line)
            == Some(LineParts(RED, "CRITICAL", FailurePrefix + error + " | " + Join(perfdata, ' ')))
    ensures |ParseStatusLine(res.line).value.body| >= |FailurePrefix|
    ensures ParseStatusLine(res.line).value.body[..|FailurePrefix|] == FailurePrefix
  {
    var message := FailurePrefix + error;
    var res := Exit(CRITICAL, "", message, perfdata);
    assert SelectLook(CRITICAL, "") == Look("CRITICAL", RED);
    assert (message + " | " + Join(perfdata, ' '))[..|FailurePrefix|] == FailurePrefix;
    res
  }

  function CountMetrics(c: ItemCounts): seq<Metric>
  {
    [Plain("movie_count", c.movies), Plain("shows_count", c.shows), Plain("episodes_count", c.episodes)]
  }

  function HourlyMetrics(stats: map<string, Value>, clock: Clock): seq<Metric>
  {
    match HourlyPlayTime(stats, clock.weekday, clock.hour)
    case None => []
    case Some(v) => [Plain("current_hour_playtime", v)]
  }

  /** One `add_stats_perfdata` round: all three reports are fetched before any
      metric of the round is added. */
  function RoundStep(acc: seq<string>, window: string, rr: RoundResponses): Result<seq<string>>
  {
    match rr.byUser
    case Err(e) => Err(e)
    case Ok(u) =>
      match rr.byDevice
      case Err(e) => Err(e)
      case Ok(d) =>
        match rr.byPlatform
        case Err(e) => Err(e)
        case Ok(p) => Ok(AddAll(acc, RoundMetrics(window, u, d, p)))
  }

  /** Where the requests of `get_stats` led: all answered, with the perf-data
      list built, or stopped by a transport error with the list built so far. */
  datatype Outcome = Done(perfdata: seq<string>) | Aborted(error: string, perfdata: seq<string>)

  /** The requests and additions of `get_stats` up to the library counts. */
  function Collect(r: Responses, clock: Clock): Outcome
  {
    match r.systemInfo
    case Err(e) => Aborted(e, [])
    case Ok(latency) =>
      match r.itemCounts
      case Err(e) => Aborted(e, [])
      case Ok(fields) => CollectSessions(r, clock, latency, AddAll([], CountMetrics(GetItemCounts(fields))))
  }

  /** The session request, the six session counters and the response time. */
  function CollectSessions(r: Responses, clock: Clock, latency: Value, acc: seq<string>): Outcome
  {
    match r.sessions
    case Err(e) => Aborted(e, acc)
    case Ok(raws) =>
      var counted := AddAll(acc, SessionMetrics(CountSessions(FormatSessions(raws))));
      CollectUsers(r, clock, Add(counted, Plain("response_time", latency)))
  }

  /** The user request and the user count. */
  function CollectUsers(r: Responses, clock: Clock, acc: seq<string>): Outcome
  {
    match r.users
    case Err(e) => Aborted(e, acc)
    case Ok(n) => CollectHourly(r, clock, Add(acc, Plain("user_count", Int(n))))
  }

  /** The hourly request and, when the report has a value for now, its metric. */
  function CollectHourly(r: Responses, clock: Clock, acc: seq<string>): Outcome
  {
    match r.hourly
    case Err(e) => Aborted(e, acc)
    case Ok(stats) => CollectRounds(r, AddAll(acc, HourlyMetrics(stats, clock)))
  }

  /** The today, week and year rounds. */
  function CollectRounds(r: Responses, acc: seq<string>): Outcome
  {
    match RoundStep(acc, "today", r.today)
    case Err(e) => Aborted(e, acc)
    case Ok(p1) =>
      match RoundStep(p1, "week", r.week)
      case Err(e) => Aborted(e, p1)
      case Ok(p2) =>
        match RoundStep(p2, "year", r.year)
        case Err(e) => Aborted(e, p2)
        case Ok(p3) => Done(p3)
  }

  /** `get_stats`: `exit(OK)` after the last round, or the CRITICAL exit of the
      first failed request. A run exits OK exactly when every request succeeds,
      and then prints "Jellyfin stats collected" and exactly the entries of
      `ReportedMetrics`, in order; otherwise it is the CRITICAL exit of the
      first failed request, whose line is red, carries the message "Could not
      contact jellyfin: " and that request's error, and lists exactly the
      entries of `AddedBeforeFailure`, the metrics added before that request. */
  function GetStats(r: Responses, clock: Clock): (res: ExitResult)
    ensures res.code == (if AllOk(r) then OK else CRITICAL)
    ensures AllOk(r) ==> res == Exit(OK, "", Collected, RenderAll(ReportedMetrics(r, clock)))
    ensures !AllOk(r) ==>
              ParseStatusLine(res.line).Some?
              && ParseStatusLine(res.line).value.color == RED
              && ParseStatusLine(res.line).value.tag == "CRITICAL"
              && |ParseStatusLine(res.line).value.body| >= |FailurePrefix|
              && ParseStatusLine(res.line).value.body[..|FailurePrefix|] == FailurePrefix
    ensures !AllOk(r) ==> res == CallFailed(FirstError(r), RenderAll(AddedBeforeFailure(r, clock)))
  {
    CollectOutcome(r, clock);
    match Collect(r, clock)
    case Done(perfdata) => Exit(OK, "", Collected, perfdata)
    case Aborted(e, perfdata) => CallFailed(e, perfdata)
  }

  predicate RoundOk(rr: RoundResponses)
  {
    rr.byUser.Ok? && rr.byDevice.Ok? && rr.byPlatform.Ok?
  }

  /** Every request of `get_stats` succeeded. */
  predicate AllOk(r: Responses)
  {
    && r.systemInfo.Ok? && r.itemCounts.Ok? && r.sessions.Ok? && r.users.Ok? && r.hourly.Ok?
    && RoundOk(r.today) && RoundOk(r.week) && RoundOk(r.year)
  }

  function RoundOf(window: string, rr: RoundResponses): seq<Metric>
    requires RoundOk(rr)
  {
    RoundMetrics(window, rr.byUser.value, rr.byDevice.value, rr.byPlatform.value)
  }

  /** The metrics of a successful run as one flat list, in the order `get_stats` adds them:
      library counts, session counters, response time, user count, the
      current hour's play time when known, then the today, week and year rounds. */
  function ReportedMetrics(r: Responses, clock: Clock): seq<Metric>
    requires AllOk(r)
  {
    CountMetrics(GetItemCounts(r.itemCounts.value)) + LaterMetrics(r, clock)
  }

  /** The metrics of a successful run after the library counts: session
      counters, response time and user count, the hourly metric if any, the rounds. */
  function LaterMetrics(r: Responses, clock: Clock): seq<Metric>
    requires AllOk(r)
  {
    SessionMetrics(CountSessions(FormatSessions(r.sessions.value)))
    + [Plain("response_time", r.systemInfo.value), Plain("user_count", Int(r.users.value))]
    + (HourlyMetrics(r.hourly.value, clock)
       + (RoundOf("today", r.today) + RoundOf("week", r.week) + RoundOf("year", r.year)))
  }

  /** The names every successful run starts with, in order. */
  const FixedNames: seq<string> := [
    "movie_count", "shows_count", "episodes_count",
    "session_total", "session_active", "session_inactive",
    "transcode_sessions", "directplay_sessions", "directstream_sessions",
    "response_time", "user_count"]

  lemma RoundStepOk(acc: seq<string>, window: string, rr: RoundResponses)
    requires RoundOk(rr)
    ensures RoundStep(acc, window, rr) == Ok(acc + RenderAll(RoundOf(window, rr)))
  {
    AddAllInOrder(acc, RoundOf(window, rr));
  }

  lemma RoundsOk(r: Responses, acc: seq<string>)
    requires RoundOk(r.today) && RoundOk(r.week) && RoundOk(r.year)
    ensures CollectRounds(r, acc)
            == Done(acc + RenderAll(RoundOf("today", r.today) + RoundOf("week", r.week) + RoundOf("year", r.year)))
  {
    var t := RoundOf("today", r.today);
    var w := RoundOf("week", r.week);
    var y := RoundOf("year", r.year);
    var p1 := acc + RenderAll(t);
    var p2 := p1 + RenderAll(w);
    var p3 := p2 + RenderAll(y);
    assert CollectRounds(r, acc) == Done(p3) by {
      RoundStepOk(acc, "today", r.today);
      RoundStepOk(p1, "week", r.week);
      RoundStepOk(p2, "year", r.year);
    }
    RenderAllConcat3(acc, t, w, y);
  }

  lemma HourlyOk(r: Responses, clock: Clock, acc: seq<string>)
    requires AllOk(r)
    ensures CollectHourly(r, clock, acc)
            == Done(acc + RenderAll(HourlyMetrics(r.hourly.value, clock)
                                    + (RoundOf("today", r.today) + RoundOf("week", r.week) + RoundOf("year", r.year))))
  {
    var h := HourlyMetrics(r.hourly.value, clock);
    var rounds := RoundOf("today", r.today) + RoundOf("week", r.week) + RoundOf("year", r.year);
    var p := AddAll(acc, h);
    assert CollectHourly(r, clock, acc) == CollectRounds(r, p);
    AddAllInOrder(acc, h);
    RoundsOk(r, p);
    RenderAllConcat2(acc, h, rounds);
  }

  lemma SessionsOk(r: Responses, clock: Clock, acc: seq<string>)
    requires AllOk(r)
    ensures CollectSessions(r, clock, r.systemInfo.value, acc) == Done(acc + RenderAll(LaterMetrics(r, clock)))
  {
    var b := SessionMetrics(CountSessions(FormatSessions(r.sessions.value)));
    var m1 := Plain("response_time", r.systemInfo.value);
    var m2 := Plain("user_count", Int(r.users.value));
    var hr := HourlyMetrics(r.hourly.value, clock)
              + (RoundOf("today", r.today) + RoundOf("week", r.week) + RoundOf("year", r.year));
    var counted := AddAll(acc, b);
    var p4 := Add(Add(counted, m1), m2);
    assert CollectSessions(r, clock, r.systemInfo.value, acc) == CollectHourly(r, clock, p4);
    AddAllInOrder(acc, b);
    AddTwo(counted, m1, m2);
    HourlyOk(r, clock, p4);
    RenderAllConcat3(acc, b, [m1, m2], hr);
  }

  /** A run whose requests all succeed collects exactly the entries of
      `ReportedMetrics`, in order. */
  lemma CollectSucceeds(r: Responses, clock: Clock)
    requires AllOk(r)
    ensures Collect(r, clock) == Done(RenderAll(ReportedMetrics(r, clock)))
  {
    CollectStart(r, clock);
    SessionsOk(r, clock, RenderAll(BeforeSessions(r)));
    RenderAllConcat(BeforeSessions(r), LaterMetrics(r, clock));
  }

  /** Once system info and the item counts are in, the run goes on to the
      session request with the entries of the library counts. */
  lemma CollectStart(r: Responses, clock: Clock)
    requires r.systemInfo.Ok? && r.itemCounts.Ok?
    ensures Collect(r, clock) == CollectSessions(r, clock, r.systemInfo.value, RenderAll(BeforeSessions(r)))
  {
    AddAfter([], BeforeSessions(r));
    assert [] + BeforeSessions(r) == BeforeSessions(r);
  }

  /** The requests of `get_stats` all get answered exactly when every one
      succeeds, and then the list built is `ReportedMetrics`. */
  lemma CollectOutcome(r: Responses, clock: Clock)
    ensures Collect(r, clock).Done? <==> AllOk(r)
    ensures AllOk(r) ==> Collect(r, clock) == Done(RenderAll(ReportedMetrics(r, clock)))
    ensures !AllOk(r) ==> Collect(r, clock) == Aborted(FirstError(r), RenderAll(AddedBeforeFailure(r, clock)))
  {
    if AllOk(r) {
      CollectSucceeds(r, clock);
    } else {
      CollectFails(r, clock);
    }
  }

  /** The eleven fixed metrics carry the fixed names, whatever their values. */
  lemma FixedPrefixNames(counts: ItemCounts, sc: SessionCounts, latency: Value, users: nat)
    ensures |CountMetrics(counts) + SessionMetrics(sc) + [Plain("response_time", latency), Plain("user_count", Int(users))]| == |FixedNames|
    ensures forall i :: 0 <= i < |FixedNames| ==>
              (CountMetrics(counts) + SessionMetrics(sc) + [Plain("response_time", latency), Plain("user_count", Int(users))])[i].name
              == FixedNames[i]
  {
  }

  /** Every metric of a breakdown round is named `play_by_...`. */
  predicate PlayByNames(ms: seq<Metric>)
  {
    forall i :: 0 <= i < |ms| ==> |ms[i].name| >= 8 && ms[i].name[..8] == "play_by_"
  }

  lemma RoundNames(window: string, rr: RoundResponses)
    requires RoundOk(rr)
    ensures PlayByNames(RoundOf(window, rr))
  {
    DimensionNames(ByUser, window, rr.byUser.value);
    DimensionNames(ByDevice, window, rr.byDevice.value);
    DimensionNames(ByPlatform, window, rr.byPlatform.value);
    PlayByConcat(DimensionMetrics(ByUser, window, GetDurations(rr.byUser.value)),
                 DimensionMetrics(ByDevice, window, GetDurations(rr.byDevice.value)),
                 DimensionMetrics(ByPlatform, window, GetDurations(rr.byPlatform.value)));
  }

  lemma DimensionNames(dim: Dimension, window: string, report: Report)
    ensures PlayByNames(DimensionMetrics(dim, window, GetDurations(report)))
  {
    var ms := DimensionMetrics(dim, window, GetDurations(report));
    DimensionMetricsOfReport(dim, window, report);
    forall i | 0 <= i < |ms|
      ensures |ms[i].name| >= 8 && ms[i].name[..8] == "play_by_"
    {
      MetricNamePlayBy(dim, window, report.value[i].name);
    }
  }

  /** A successful run's list is the eleven fixed metrics followed by the
      hourly metric, if any, and the three rounds. */
  lemma ReportedLayout(r: Responses, clock: Clock)
    requires AllOk(r)
    ensures ReportedMetrics(r, clock)
            == (CountMetrics(GetItemCounts(r.itemCounts.value))
                + SessionMetrics(CountSessions(FormatSessions(r.sessions.value)))
                + [Plain("response_time", r.systemInfo.value), Plain("user_count", Int(r.users.value))])
               + (HourlyMetrics(r.hourly.value, clock)
                  + (RoundOf("today", r.today) + RoundOf("week", r.week) + RoundOf("year", r.year)))
  {
    Regroup(CountMetrics(GetItemCounts(r.itemCounts.value)),
            SessionMetrics(CountSessions(FormatSessions(r.sessions.value))),
            [Plain("response_time", r.systemInfo.value), Plain("user_count", Int(r.users.value))],
            HourlyMetrics(r.hourly.value, clock)
            + (RoundOf("today", r.today) + RoundOf("week", r.week) + RoundOf("year", r.year)));
  }

  /** Every successful run starts with the eleven fixed metrics, in order: the
      three library counts as the server gave them (0 when absent), the session
      total being the number of sessions, each session counter the size of its
      filtered session list, the response time and the number of users. The
      collections count is never among them. */
  lemma FixedMetricOrder(r: Responses, clock: Clock)
    requires AllOk(r)
    ensures |ReportedMetrics(r, clock)| >= |FixedNames|
    ensures forall i :: 0 <= i < |FixedNames| ==> ReportedMetrics(r, clock)[i].name == FixedNames[i]
    ensures ReportedMetrics(r, clock)[3].value == Int(|r.sessions.value|)
    ensures var f := r.itemCounts.value;
            var ss := FormatSessions(r.sessions.value);
            ReportedMetrics(r, clock)[..|FixedNames|]
            == [ Plain("movie_count", if "MovieCount" in f then f["MovieCount"] else Int(0)),
                 Plain("shows_count", if "SeriesCount" in f then f["SeriesCount"] else Int(0)),
                 Plain("episodes_count", if "EpisodeCount" in f then f["EpisodeCount"] else Int(0)),
                 Plain("session_total", Int(|r.sessions.value|)),
                 Plain("session_active", Int(|Filter(ss, IsActive)|)),
                 Plain("session_inactive", Int(|Filter(ss, IsInactive)|)),
                 Plain("transcode_sessions", Int(|Filter(ss, Transcoding)|)),
                 Plain("directplay_sessions", Int(|Filter(ss, DirectPlaying)|)),
                 Plain("directstream_sessions", Int(|Filter(ss, DirectStreaming)|)),
                 Plain("response_time", r.systemInfo.value),
                 Plain("user_count", Int(r.users.value)) ]
  {
    var counts := GetItemCounts(r.itemCounts.value);
    var sc := CountSessions(FormatSessions(r.sessions.value));
    var fixed := CountMetrics(counts) + SessionMetrics(sc)
                 + [Plain("response_time", r.systemInfo.value), Plain("user_count", Int(r.users.value))];
    ReportedLayout(r, clock);
    FixedPrefixNames(counts, sc, r.systemInfo.value, r.users.value);
    FixedValues(r);
    SliceOfConcat(fixed, HourlyMetrics(r.hourly.value, clock)
                         + (RoundOf("today", r.today) + RoundOf("week", r.week) + RoundOf("year", r.year)));
  }

  /** The eleven fixed metrics of a successful run, value by value. */
  lemma FixedValues(r: Responses)
    requires AllOk(r)
    ensures var f := r.itemCounts.value;
            var ss := FormatSessions(r.sessions.value);
            CountMetrics(GetItemCounts(f)) + SessionMetrics(CountSessions(ss))
            + [Plain("response_time", r.systemInfo.value), Plain("user_count", Int(r.users.value))]
            == [ Plain("movie_count", if "MovieCount" in f then f["MovieCount"] else Int(0)),
                 Plain("shows_count", if "SeriesCount" in f then f["SeriesCount"] else Int(0)),
                 Plain("episodes_count", if "EpisodeCount" in f then f["EpisodeCount"] else Int(0)),
                 Plain("session_total", Int(|r.sessions.value|)),
                 Plain("session_active", Int(|Filter(ss, IsActive)|)),
                 Plain("session_inactive", Int(|Filter(ss, IsInactive)|)),
                 Plain("transcode_sessions", Int(|Filter(ss, Transcoding)|)),
                 Plain("directplay_sessions", Int(|Filter(ss, DirectPlaying)|)),
                 Plain("directstream_sessions", Int(|Filter(ss, DirectStreaming)|)),
                 Plain("response_time", r.systemInfo.value),
                 Plain("user_count", Int(r.users.value)) ]
  {
    SessionTotalIsLength(r.sessions.value);
  }

  lemma SliceOfConcat<T>(a: seq<T>, b: seq<T>)
    ensures (a + b)[..|a|] == a
  {
  }

  /** The twelfth metric of a successful run is the current hour's play time
      exactly when the hourly report has a value for now, and it carries that
      value; the today, week and year rounds follow it (or follow the fixed
      metrics directly when there is no value), in that order. */
  lemma HourlyMetricPosition(r: Responses, clock: Clock)
    requires AllOk(r)
    ensures (|ReportedMetrics(r, clock)| > |FixedNames|
             && ReportedMetrics(r, clock)[|FixedNames|].name == "current_hour_playtime")
            <==> HourlyPlayTime(r.hourly.value, clock.weekday, clock.hour).Some?
    ensures HourlyPlayTime(r.hourly.value, clock.weekday, clock.hour).Some? ==>
              |ReportedMetrics(r, clock)| > |FixedNames|
              && ReportedMetrics(r, clock)[|FixedNames|]
                 == Plain("current_hour_playtime", HourlyPlayTime(r.hourly.value, clock.weekday, clock.hour).value)
    ensures var start := |FixedNames| + |HourlyMetrics(r.hourly.value, clock)|;
            start <= |ReportedMetrics(r, clock)|
            && ReportedMetrics(r, clock)[start..]
               == RoundOf("today", r.today) + RoundOf("week", r.week) + RoundOf("year", r.year)
  {
    var fixed := CountMetrics(GetItemCounts(r.itemCounts.value))
                 + SessionMetrics(CountSessions(FormatSessions(r.sessions.value)))
                 + [Plain("response_time", r.systemInfo.value), Plain("user_count", Int(r.users.value))];
    var hv := HourlyPlayTime(r.hourly.value, clock.weekday, clock.hour);
    var t := RoundOf("today", r.today);
    var w := RoundOf("week", r.week);
    var y := RoundOf("year", r.year);
    ReportedLayout(r, clock);
    assert |fixed| == |FixedNames|;
    RoundNames("today", r.today);
    RoundNames("week", r.week);
    RoundNames("year", r.year);
    PlayByConcat(t, w, y);
    HourlySlot(ReportedMetrics(r, clock), fixed, HourlyMetrics(r.hourly.value, clock), t + w + y, hv);
  }

  lemma PlayByConcat(t: seq<Metric>, w: seq<Metric>, y: seq<Metric>)
    requires PlayByNames(t) && PlayByNames(w) && PlayByNames(y)
    ensures PlayByNames(t + w + y)
  {
    forall i | 0 <= i < |t + w + y|
      ensures |(t + w + y)[i].name| >= 8 && (t + w + y)[i].name[..8] == "play_by_"
    {
      if i < |t| {
        assert (t + w + y)[i] == t[i];
      } else if i < |t| + |w| {
        assert (t + w + y)[i] == w[i - |t|];
      } else {
        assert (t + w + y)[i] == y[i - |t| - |w|];
      }
    }
  }

  /** The slot after the fixed metrics: the hourly metric when there is a
      value, then the rounds, whose names all start with `play_by_`. */
  lemma HourlySlot(all: seq<Metric>, fixed: seq<Metric>, h: seq<Metric>, rounds: seq<Metric>, hv: Option<Value>)
    requires all == fixed + (h + rounds)
    requires h == (if hv.Some? then [Plain("current_hour_playtime", hv.value)] else [])
    requires PlayByNames(rounds)
    ensures (|all| > |fixed| && all[|fixed|].name == "current_hour_playtime") <==> hv.Some?
    ensures hv.Some? ==> |all| > |fixed| && all[|fixed|] == Plain("current_hour_playtime", hv.value)
    ensures |fixed| + |h| <= |all| && all[|fixed| + |h|..] == rounds
  {
    AfterPrefix(fixed, h, rounds);
    if hv.None? && |rounds| > 0 {
      assert all[|fixed|] == rounds[0];
      assert rounds[0].name[..8] == "play_by_";
      assert "current_hour_playtime"[..8] == "current_";
    }
  }

  /** In `a + (b + c)`, `b` starts right after `a` and `c` right after `b`. */
  lemma AfterPrefix(a: seq<Metric>, b: seq<Metric>, c: seq<Metric>)
    ensures (a + (b + c))[|a| + |b|..] == c
    ensures b != [] ==> (a + (b + c))[|a|] == b[0]
  {
    assert (a + (b + c)) == (a + b) + c;
  }

  lemma Regroup(a: seq<Metric>, b: seq<Metric>, c: seq<Metric>, d: seq<Metric>)
    ensures a + (b + c + d) == a + b + c + d
  {
  }

  /** The error of one breakdown round's first failed request. */
  function RoundError(rr: RoundResponses): string
    requires !RoundOk(rr)
  {
    if rr.byUser.Err? then rr.byUser.error
    else if rr.byDevice.Err? then rr.byDevice.error
    else rr.byPlatform.error
  }

  /** The error of the first request of `get_stats` that failed, in request order. */
  function FirstError(r: Responses): string
    requires !AllOk(r)
  {
    if r.systemInfo.Err? then r.systemInfo.error
    else if r.itemCounts.Err? then r.itemCounts.error
    else if r.sessions.Err? then r.sessions.error
    else if r.users.Err? then r.users.error
    else if r.hourly.Err? then r.hourly.error
    else if !RoundOk(r.today) then RoundError(r.today)
    else if !RoundOk(r.week) then RoundError(r.week)
    else RoundError(r.year)
  }

  /** The metrics `get_stats` adds before its session request. */
  function BeforeSessions(r: Responses): seq<Metric>
    requires r.itemCounts.Ok?
  {
    CountMetrics(GetItemCounts(r.itemCounts.value))
  }

  /** ... before its user request. */
  function BeforeUsers(r: Responses): seq<Metric>
    requires r.systemInfo.Ok? && r.itemCounts.Ok? && r.sessions.Ok?
  {
    BeforeSessions(r) + SessionMetrics(CountSessions(FormatSessions(r.sessions.value)))
    + [Plain("response_time", r.systemInfo.value)]
  }

  /** ... before its hourly request. */
  function BeforeHourly(r: Responses): seq<Metric>
    requires r.systemInfo.Ok? && r.itemCounts.Ok? && r.sessions.Ok? && r.users.Ok?
  {
    BeforeUsers(r) + [Plain("user_count", Int(r.users.value))]
  }

  /** ... before its first breakdown request. */
  function BeforeRounds(r: Responses, clock: Clock): seq<Metric>
    requires r.systemInfo.Ok? && r.itemCounts.Ok? && r.sessions.Ok? && r.users.Ok? && r.hourly.Ok?
  {
    BeforeHourly(r) + HourlyMetrics(r.hourly.value, clock)
  }

  /** The metrics a run with a failed request has added when that request
      fails: everything added before the first failed request, and nothing
      of the round that request belongs to. */
  function AddedBeforeFailure(r: Responses, clock: Clock): seq<Metric>
    requires !AllOk(r)
  {
    if r.systemInfo.Err? || r.itemCounts.Err? then []
    else if r.sessions.Err? then BeforeSessions(r)
    else if r.users.Err? then BeforeUsers(r)
    else if r.hourly.Err? then BeforeHourly(r)
    else if !RoundOk(r.today) then BeforeRounds(r, clock)
    else if !RoundOk(r.week) then BeforeRounds(r, clock) + RoundOf("today", r.today)
    else BeforeRounds(r, clock) + RoundOf("today", r.today) + RoundOf("week", r.week)
  }

  lemma RoundStepErr(acc: seq<string>, window: string, rr: RoundResponses)
    requires !RoundOk(rr)
    ensures RoundStep(acc, window, rr) == Err(RoundError(rr))
  {
  }

  /** Adding after a rendered list renders the longer list. */
  lemma AddAfter(ms: seq<Metric>, more: seq<Metric>)
    ensures AddAll(RenderAll(ms), more) == RenderAll(ms + more)
  {
    AddAllInOrder(RenderAll(ms), more);
    RenderAllConcat(ms, more);
  }

  /** A run with a failed request stops at the first failed one, with the
      entries of the metrics added before it. */
  lemma CollectFails(r: Responses, clock: Clock)
    requires !AllOk(r)
    ensures Collect(r, clock) == Aborted(FirstError(r), RenderAll(AddedBeforeFailure(r, clock)))
  {
    if r.systemInfo.Ok? && r.itemCounts.Ok? {
      CollectStart(r, clock);
      SessionsFail(r, clock);
    }
  }

  lemma SessionsFail(r: Responses, clock: Clock)
    requires !AllOk(r) && r.systemInfo.Ok? && r.itemCounts.Ok?
    ensures CollectSessions(r, clock, r.systemInfo.value, RenderAll(BeforeSessions(r)))
            == Aborted(FirstError(r), RenderAll(AddedBeforeFailure(r, clock)))
  {
    if r.sessions.Ok? {
      SessionsStep(r);
      UsersFail(r, clock);
    }
  }

  /** The session step turns the entries before it into those before the user request. */
  lemma SessionsStep(r: Responses)
    requires r.systemInfo.Ok? && r.itemCounts.Ok? && r.sessions.Ok?
    ensures Add(AddAll(RenderAll(BeforeSessions(r)), SessionMetrics(CountSessions(FormatSessions(r.sessions.value)))),
                Plain("response_time", r.systemInfo.value))
            == RenderAll(BeforeUsers(r))
  {
    AddAfterThenOne(BeforeSessions(r), SessionMetrics(CountSessions(FormatSessions(r.sessions.value))),
                    Plain("response_time", r.systemInfo.value));
  }

  /** One addition after a rendered list renders the longer list. */
  lemma AddOne(ms: seq<Metric>, m: Metric)
    ensures Add(RenderAll(ms), m) == RenderAll(ms + [m])
  {
    RenderAllConcat(ms, [m]);
  }

  /** A run of additions and then one more after a rendered list renders the longer list. */
  lemma AddAfterThenOne(ms: seq<Metric>, more: seq<Metric>, m: Metric)
    ensures Add(AddAll(RenderAll(ms), more), m) == RenderAll(ms + more + [m])
  {
    AddAfter(ms, more);
    RenderAllConcat(ms + more, [m]);
  }

  lemma UsersFail(r: Responses, clock: Clock)
    requires !AllOk(r) && r.systemInfo.Ok? && r.itemCounts.Ok? && r.sessions.Ok?
    ensures CollectUsers(r, clock, RenderAll(BeforeUsers(r)))
            == Aborted(FirstError(r), RenderAll(AddedBeforeFailure(r, clock)))
  {
    if r.users.Ok? {
      AddOne(BeforeUsers(r), Plain("user_count", Int(r.users.value)));
      assert CollectUsers(r, clock, RenderAll(BeforeUsers(r))) == CollectHourly(r, clock, RenderAll(BeforeHourly(r)));
      HourlyFail(r, clock);
    }
  }

  lemma HourlyFail(r: Responses, clock: Clock)
    requires !AllOk(r) && r.systemInfo.Ok? && r.itemCounts.Ok? && r.sessions.Ok? && r.users.Ok?
    ensures CollectHourly(r, clock, RenderAll(BeforeHourly(r)))
            == Aborted(FirstError(r), RenderAll(AddedBeforeFailure(r, clock)))
  {
    if r.hourly.Ok? {
      AddAfter(BeforeHourly(r), HourlyMetrics(r.hourly.value, clock));
      assert CollectHourly(r, clock, RenderAll(BeforeHourly(r))) == CollectRounds(r, RenderAll(BeforeRounds(r, clock)));
      RoundsFail(r, clock);
    }
  }

  lemma RoundsFail(r: Responses, clock: Clock)
    requires !AllOk(r) && r.systemInfo.Ok? && r.itemCounts.Ok? && r.sessions.Ok? && r.users.Ok? && r.hourly.Ok?
    ensures CollectRounds(r, RenderAll(BeforeRounds(r, clock)))
            == Aborted(FirstError(r), RenderAll(AddedBeforeFailure(r, clock)))
  {
    var b := BeforeRounds(r, clock);
    if !RoundOk(r.today) {
      RoundStepErr(RenderAll(b), "today", r.today);
    } else {
      var t := RoundOf("today", r.today);
      RoundStepOk(RenderAll(b), "today", r.today);
      RenderAllConcat(b, t);
      if !RoundOk(r.week) {
        RoundStepErr(RenderAll(b + t), "week", r.week);
      } else {
        var w := RoundOf("week", r.week);
        RoundStepOk(RenderAll(b + t), "week", r.week);
        RenderAllConcat(b + t, w);
        RoundStepErr(RenderAll(b + t + w), "year", r.year);
      }
    }
  }

  /** A failed session request still prints the three library counts already
      added, behind the CRITICAL tag and the transport error. */
  lemma SessionFailureKeepsCounts(r: Responses, clock: Clock)
    requires r.systemInfo.Ok? && r.itemCounts.Ok? && r.sessions.Err?
    ensures Collect(r, clock) == Aborted(r.sessions.error, RenderAll(CountMetrics(GetItemCounts(r.itemCounts.value))))
    ensures GetStats(r, clock)
            == Exit(CRITICAL, "", "Could not contact jellyfin: " + r.sessions.error,
                    RenderAll(CountMetrics(GetItemCounts(r.itemCounts.value))))
  {
    var a := CountMetrics(GetItemCounts(r.itemCounts.value));
    var p := AddAll([], a);
    assert Collect(r, clock) == CollectSessions(r, clock, r.systemInfo.value, p);
    assert CollectSessions(r, clock, r.systemInfo.value, p) == Aborted(r.sessions.error, p);
    assert p == RenderAll(a) by {
      AddAllInOrder([], a);
      assert [] + RenderAll(a) == RenderAll(a);
    }
  }

  /** The server's `BoxSetCount` is read but never reported: changing it
      changes nothing the run prints or returns. */
  lemma CollectionsNotReported(r: Responses, clock: Clock, v: Value)
    requires r.itemCounts.Ok?
    ensures GetStats(r.(itemCounts := Ok(r.itemCounts.value["BoxSetCount" := v])), clock) == GetStats(r, clock)
  {
    var r' := r.(itemCounts := Ok(r.itemCounts.value["BoxSetCount" := v]));
    CollectIgnoresCollections(r, clock, v);
    assert Collect(r', clock) == Collect(r, clock);
  }

  lemma CollectIgnoresCollections(r: Responses, clock: Clock, v: Value)
    requires r.itemCounts.Ok?
    ensures Collect(r.(itemCounts := Ok(r.itemCounts.value["BoxSetCount" := v])), clock) == Collect(r, clock)
  {
    var fields := r.itemCounts.value;
    var r' := r.(itemCounts := Ok(fields["BoxSetCount" := v]));
    assert CountMetrics(GetItemCounts(fields["BoxSetCount" := v])) == CountMetrics(GetItemCounts(fields));
    match r.systemInfo
    case Err(_) =>
    case Ok(latency) =>
      var acc := AddAll([], CountMetrics(GetItemCounts(fields)));
      assert Collect(r', clock) == CollectSessions(r', clock, latency, acc);
      assert Collect(r, clock) == CollectSessions(r, clock, latency, acc);
      SessionsIgnoreCounts(r, r', clock, latency, acc);
  }

  /** Two sets of answers that differ at most in the library counts. */
  predicate SameAfterCounts(r: Responses, r': Responses)
  {
    && r'.sessions == r.sessions && r'.users == r.users && r'.hourly == r.hourly
    && r'.today == r.today && r'.week == r.week && r'.year == r.year
  }

  /** The stages after the library counts read no library count. */
  lemma SessionsIgnoreCounts(r: Responses, r': Responses, clock: Clock, latency: Value, acc: seq<string>)
    requires SameAfterCounts(r, r')
    ensures CollectSessions(r', clock, latency, acc) == CollectSessions(r, clock, latency, acc)
  {
    match r.sessions
    case Err(_) =>
    case Ok(raws) =>
      var p := Add(AddAll(acc, SessionMetrics(CountSessions(FormatSessions(raws)))), Plain("response_time", latency));
      UsersIgnoreCounts(r, r', clock, p);
  }

  lemma UsersIgnoreCounts(r: Responses, r': Responses, clock: Clock, acc: seq<string>)
    requires SameAfterCounts(r, r')
    ensures CollectUsers(r', clock, acc) == CollectUsers(r, clock, acc)
  {
    match r.users
    case Err(_) =>
    case Ok(n) =>
      var p := Add(acc, Plain("user_count", Int(n)));
      assert CollectUsers(r, clock, acc) == CollectHourly(r, clock, p);
      assert CollectUsers(r', clock, acc) == CollectHourly(r', clock, p);
      HourlyIgnoresCounts(r, r', clock, p);
  }

  lemma HourlyIgnoresCounts(r: Responses, r': Responses, clock: Clock, acc: seq<string>)
    requires SameAfterCounts(r, r')
    ensures CollectHourly(r', clock, acc) == CollectHourly(r, clock, acc)
  {
    match r.hourly
    case Err(_) =>
    case Ok(stats) =>
      var p := AddAll(acc, HourlyMetrics(stats, clock));
      assert CollectHourly(r, clock, acc) == CollectRounds(r, p);
      assert CollectHourly(r', clock, acc) == CollectRounds(r', p);
      RoundsIgnoreCounts(r, r', p);
  }

  lemma RoundsIgnoreCounts(r: Responses, r': Responses, acc: seq<string>)
    requires SameAfterCounts(r, r')
    ensures CollectRounds(r', acc) == CollectRounds(r, acc)
  {
  }

  /** The command-line settings the run checks before any request. An absent
      option and an empty one are both the empty string. */
  datatype Options = Options(hostname: string, apiKey: string)

  const HostnameMissing: string := "Hostname parameter (-H) is mandatory"
  const TokenMissing: string := "Token parameter (-t) is mandatory"

  /** A refused start: CRITICAL, drawn red and labelled ERROR, with the message
      and an empty performance-data section. */
  lemma RefusedStart(message: string)
    ensures Exit(CRITICAL, "ERROR", message, []).code == CRITICAL
    ensures ParseStatusLine(Exit(CRITICAL, "ERROR", message, []).line)
            == Some(LineParts(RED, "ERROR", message + " | "))
  {
    assert SelectLook(CRITICAL, "ERROR") == Look("ERROR", RED);
    assert Join([], ' ') == "";
    assert message + " | " + "" == message + " | ";
  }

  /** The entry point: without a host name, or else without an API key, it
      exits CRITICAL with the label ERROR, the matching message and no
      performance data; otherwise it runs `get_stats`, which exits OK exactly
      when every request succeeds. */
  function Run(opts: Options, r: Responses, clock: Clock): (res: ExitResult)
    ensures opts.hostname == "" ==>
              res.code == CRITICAL
              && ParseStatusLine(res.line) == Some(LineParts(RED, "ERROR", HostnameMissing + " | "))
    ensures opts.hostname != "" && opts.apiKey == "" ==>
              res.code == CRITICAL
              && ParseStatusLine(res.line) == Some(LineParts(RED, "ERROR", TokenMissing + " | "))
    ensures res.code == OK <==> opts.hostname != "" && opts.apiKey != "" && AllOk(r)
    ensures res.code == OK ==>
              ParseStatusLine(res.line)
              == Some(LineParts(GREEN, "OK", Collected + " | " + Join(RenderAll(ReportedMetrics(r, clock)), ' ')))
  {
    if opts.hostname == "" then
      RefusedStart(HostnameMissing);
      Exit(CRITICAL, "ERROR", HostnameMissing, [])
    else if opts.apiKey == "" then
      RefusedStart(TokenMissing);
      Exit(CRITICAL, "ERROR", TokenMissing, [])
    else
      GetStats(r, clock)
  }
}

=== FILE: status.dfy ===
/** The plugin's final report (`exit`): a status picks a label and a colour,
    and one line carries the colour-tagged label, the message and the joined
    performance data; the status is also the process exit code (Nagios
    convention 0 OK, 1 WARNING, 2 CRITICAL, 3 UNKNOWN). Terminating the process
    is modelled by returning the line and the code. */
module Status {
  import opened Basics
  import opened Text

  const OK: int := 0
  const WARNING: int := 1
  const CRITICAL: int := 2
  const UNKNOWN: int := 3

  const GREEN: string := "#2A9A3D"
  const RED: string := "#FF0000"
  const ORANGE: string := "#f57700"
  // The program gives GRAY the same value as ORANGE.
  const GRAY: string := "#f57700"

  /** The label and colour shown for a status. */
  datatype Look = Look(tag: string, color: string)

  /** The looks of the three named statuses; every other status is UNKNOWN in GRAY. */
  const Named: map<int, Look> := map[
    OK := Look("OK", GREEN),
    WARNING := Look("WARNING", ORANGE),
    CRITICAL := Look("CRITICAL", RED)]

  /** Label and colour chosen by `exit`: a non-empty override label is kept
      verbatim, an empty one falls back to the status's own label; the colour
      follows the status alone. */
  function SelectLook(status: int, exitLabel: string): (r: Look)
    ensures r.color == (if status in Named then Named[status].color else GRAY)
    ensures r.tag == (if exitLabel != "" then exitLabel
                        else if status in Named then Named[status].tag
                        else "UNKNOWN")
    ensures ';' !in r.color
  {
    if status == OK then
      Look(if exitLabel == "" then "OK" else exitLabel, GREEN)
    else if status == WARNING then
      Look(if exitLabel == "" then "WARNING" else exitLabel, ORANGE)
    else if status == CRITICAL then
      Look(if exitLabel == "" then "CRITICAL" else exitLabel, RED)
    else
      Look(if exitLabel == "" then "UNKNOWN" else exitLabel, GRAY)
  }

  /** Every status outside the three named ones looks like UNKNOWN, and
      UNKNOWN is drawn in the same colour as WARNING, because the two colour
      constants are equal. */
  lemma UnknownSharesWarningColor(status: int)
    requires status !in {OK, WARNING, CRITICAL}
    ensures SelectLook(status, "") == SelectLook(UNKNOWN, "")
    ensures SelectLook(status, "").color == SelectLook(WARNING, "").color
    ensures SelectLook(status, "").tag != SelectLook(WARNING, "").tag
  {
  }

  const SpanOpen: string := "<span style=\"color:"
  const SpanStyle: string := "font-weight: bold;\">["
  const SpanClose: string := "</span> "

  /** What `exit` prints and the code it terminates with. */
  datatype ExitResult = ExitResult(line: string, code: int)

  /** A status line taken apart: colour, label, and everything after the tag. */
  datatype LineParts = LineParts(color: string, tag: string, body: string)

  /** Reads a status line back into colour, label and body. */
  function ParseStatusLine(line: string): Option<LineParts>
  {
    match DropPrefix(line, SpanOpen)
    case None => None
    case Some(r1) =>
      match SplitFirst(r1, ';')
      case None => None
      case Some(p1) =>
        match ParseTag(p1.1)
        case None => None
        case Some(rest) => Some(LineParts(p1.0, rest.0, rest.1))
  }

  /** Reads `font-weight: bold;">[L]</span> BODY` into the label and the body. */
  function ParseTag(s: string): Option<(string, string)>
  {
    match DropPrefix(s, SpanStyle)
    case None => None
    case Some(r2) =>
      match SplitFirst(r2, ']')
      case None => None
      case Some(p2) =>
        match DropPrefix(p2.1, SpanClose)
        case None => None
        case Some(body) => Some((p2.0, body))
  }

  lemma ParseTagOf(tag: string, body: string)
    requires ']' !in tag
    ensures ParseTag(SpanStyle + tag + "]" + SpanClose + body) == Some((tag, body))
  {
    var r2 := tag + "]" + SpanClose + body;
    assert SpanStyle + tag + "]" + SpanClose + body == SpanStyle + r2;
    DropPrefixOf(SpanStyle, r2);
    assert r2 == tag + [']'] + (SpanClose + body);
    SplitFirstOf(tag, ']', SpanClose + body);
    DropPrefixOf(SpanClose, body);
  }

  /** The printed line: `<span style="color:C;font-weight: bold;">[L]</span> OUT | P1 P2 ...`.
      It reads back into its colour, its label, and the message followed by
      ` | ` and the space-joined entries, whenever the label holds no `]`. */
  function StatusLine(look: Look, output: string, perfdata: seq<string>): (line: string)
    ensures ';' !in look.color && ']' !in look.tag ==>
              ParseStatusLine(line) == Some(LineParts(look.color, look.tag, output + " | " + Join(perfdata, ' ')))
  {
    var body := output + " | " + Join(perfdata, ' ');
    var r2 := SpanStyle + look.tag + "]" + SpanClose + body;
    var r1 := look.color + ";" + r2;
    var line := SpanOpen + look.color + ";" + SpanStyle + look.tag + "]" + SpanClose + output + " | " + Join(perfdata, ' ');
    assert line == SpanOpen + r1;
    DropPrefixOf(SpanOpen, r1);
    assert r1 == look.color + [';'] + r2;
    if ';' !in look.color && ']' !in look.tag then
      SplitFirstOf(look.color, ';', r2);
      ParseTagOf(look.tag, body);
      line
    else line
  }

  /** `exit(status, exit_label)` with the message and the perf-data list it
      prints: the exit code is the status, and the line shows the chosen colour
      and label followed by the message, ` | ` and the space-joined entries. */
  function Exit(status: int, exitLabel: string, output: string, perfdata: seq<string>): (r: ExitResult)
    ensures r.code == status
    ensures ']' !in exitLabel ==>
              ParseStatusLine(r.line)
              == Some(LineParts(SelectLook(status, exitLabel).color, SelectLook(status, exitLabel).tag,
                             output + " | " + Join(perfdata, ' ')))
  {
    var look := SelectLook(status, exitLabel);
    ExitResult(StatusLine(look, output, perfdata), status)
  }
}

=== FILE: text.dfy ===
/** String helpers with the meaning Python gives them. Single-character
    `replace` and `split(c)[0]` are characterised character by character;
    `join` and `%d` rendering of integers are each inverted by a parser.
    `SplitFirst` splits at the first occurrence of a character, like
    `partition`, but returns None where `partition` returns `(s, "", "")`. */
module Text {
  import opened Basics

  /** `s.replace(from, to)` for single characters. */
  function ReplaceChar(s: string, from: char, to: char): (r: string)
    ensures |r| == |s|
    ensures forall i :: 0 <= i < |s| ==> r[i] == (if s[i] == from then to else s[i])
    ensures from != to ==> from !in r
  {
    if s == [] then []
    else [if s[0] == from then to else s[0]] + ReplaceChar(s[1..], from, to)
  }

  /** The text before and after the first `c` in `s` (Python's `s.partition(c)`),
      or None when `s` holds no `c`. */
  function SplitFirst(s: string, c: char): (r: Option<(string, string)>)
    ensures r.None? <==> c !in s
    ensures r.Some? ==> s == r.value.0 + [c] + r.value.1 && c !in r.value.0
  {
    if s == [] then None
    else if s[0] == c then Some(([], s[1..]))
    else match SplitFirst(s[1..], c)
      case None => None
      case Some(p) =>
        assert s == [s[0]] + s[1..];
        Some(([s[0]] + p.0, p.1))
  }

  /** Splitting at the first `c` undoes gluing two pieces with `c` when the
      first piece holds no `c`. */
  lemma {:induction false} SplitFirstOf(a: string, c: char, b: string)
    requires c !in a
    ensures SplitFirst(a + [c] + b, c) == Some((a, b))
  {
    var s := a + [c] + b;
    if a == [] {
      assert s == [c] + b;
    } else {
      assert a[0] in a;
      assert s[1..] == a[1..] + [c] + b;
      SplitFirstOf(a[1..], c, b);
      assert [a[0]] + a[1..] == a;
    }
  }

  /** `s.split(c)[0]`: everything before the first `c`, or all of `s`. */
  function BeforeFirst(s: string, c: char): (r: string)
    ensures |r| <= |s| && r == s[..|r|]
    ensures c !in r
    ensures |r| < |s| ==> s[|r|] == c
  {
    match SplitFirst(s, c)
    case None => s
    case Some(p) => p.0
  }

  /** The rest of `s` after the prefix `p`, if `s` starts with `p`. */
  function DropPrefix(s: string, p: string): (r: Option<string>)
    ensures r.Some? <==> |p| <= |s| && s[..|p|] == p
    ensures r.Some? ==> s == p + r.value
  {
    if |p| <= |s| && s[..|p|] == p then Some(s[|p|..]) else None
  }

  lemma DropPrefixOf(p: string, t: string)
    ensures DropPrefix(p + t, p) == Some(t)
  {
    assert (p + t)[..|p|] == p;
    assert (p + t)[|p|..] == t;
  }

  /** `sep.join(parts)` for a one-character separator. */
  function Join(parts: seq<string>, sep: char): string
  {
    if |parts| == 0 then ""
    else if |parts| == 1 then parts[0]
    else parts[0] + [sep] + Join(parts[1..], sep)
  }

  /** `s.split(sep)`: the pieces between successive separators, empty pieces kept. */
  function SplitOn(s: string, sep: char): (r: seq<string>)
    ensures |r| >= 1
    ensures forall i :: 0 <= i < |r| ==> sep !in r[i]
    decreases |s|
  {
    match SplitFirst(s, sep)
    case None => [s]
    case Some(p) => [p.0] + SplitOn(p.1, sep)
  }

  /** Splitting a join recovers the parts, when no part holds the separator. */
  lemma {:induction false} SplitOnJoin(parts: seq<string>, sep: char)
    requires |parts| >= 1
    requires forall i :: 0 <= i < |parts| ==> sep !in parts[i]
    ensures SplitOn(Join(parts, sep), sep) == parts
    decreases |parts|
  {
    if |parts| == 1 {
      assert SplitFirst(parts[0], sep).None?;
    } else {
      var rest := Join(parts[1..], sep);
      SplitFirstOf(parts[0], sep, rest);
      SplitOnJoin(parts[1..], sep);
      assert parts == [parts[0]] + parts[1..];
    }
  }

  predicate IsDigit(ch: char) { '0' <= ch <= '9' }

  predicate AllDigits(s: string) { forall i :: 0 <= i < |s| ==> IsDigit(s[i]) }

  function Digit(d: nat): (ch: char)
    requires d < 10
    ensures IsDigit(ch)
  {
    ('0' as int + d) as char
  }

  function DigitValue(ch: char): nat
    requires IsDigit(ch)
  {
    (ch as int - '0' as int) as nat
  }

  /** Decimal digits of `n`, no sign and no leading zero (Python's `"%d" % n`). */
  function NatToDecimal(n: nat): (r: string)
    ensures |r| >= 1 && AllDigits(r)
    ensures r[0] == '0' <==> n == 0
    decreases n
  {
    if n < 10 then [Digit(n)] else NatToDecimal(n / 10) + [Digit(n % 10)]
  }

  /** The value of a string of decimal digits; leading zeros are allowed. */
  function DigitsValue(s: string): nat
    requires AllDigits(s)
  {
    if s == [] then 0 else 10 * DigitsValue(s[..|s| - 1]) + DigitValue(s[|s| - 1])
  }

  /** Reads a non-empty run of decimal digits. */
  function ParseNat(s: string): (r: Option<nat>)
    ensures r.Some? <==> |s| >= 1 && AllDigits(s)
  {
    if |s| >= 1 && AllDigits(s) then Some(DigitsValue(s)) else None
  }

  /** Reading back the decimal rendering of a natural number gives the number. */
  lemma {:induction false} ParseNatToDecimal(n: nat)
    ensures ParseNat(NatToDecimal(n)) == Some(n)
    decreases n
  {
    if n >= 10 {
      var s := NatToDecimal(n);
      ParseNatToDecimal(n / 10);
      assert s[..|s| - 1] == NatToDecimal(n / 10);
      assert DigitValue(s[|s| - 1]) == n % 10;
      assert DigitsValue(s) == 10 * (n / 10) + n % 10;
    }
  }

  /** Decimal rendering of `n`, a minus sign first when negative (`"%d" % n`). */
  function IntToDecimal(n: int): (r: string)
    ensures |r| >= 1
    ensures forall i :: 0 <= i < |r| ==> IsDigit(r[i]) || (i == 0 && r[i] == '-')
  {
    if n < 0 then "-" + NatToDecimal(-n) else NatToDecimal(n)
  }

  /** Reads an optionally minus-signed run of decimal digits. */
  function ParseInt(s: string): Option<int>
  {
    if |s| >= 1 && s[0] == '-' then
      match ParseNat(s[1..])
      case None => None
      case Some(n) => Some(-(n as int))
    else
      match ParseNat(s)
      case None => None
      case Some(n) => Some(n)
  }

  /** Reading back the rendering of any integer gives the integer. */
  lemma IntToDecimalRoundTrip(n: int)
    ensures ParseInt(IntToDecimal(n)) == Some(n)
  {
    if n < 0 {
      ParseNatToDecimal(-n);
      assert IntToDecimal(n)[1..] == NatToDecimal(-n);
    } else {
      ParseNatToDecimal(n);
    }
  }
}
